=== FILE: README.md ===
# Name finder core of OpenNLP, modelled in Dafny

This project models the decision logic of OpenNLP's maximum-entropy name finder
(`NameFinderME`) and of the factory that configures it (`TokenNameFinderFactory`):

- **Overlap resolution** (`Overlap`): `dropOverlappingSpans` sorts candidate name
  spans and makes one greedy pass that keeps a "last kept" span and drops every
  later span intersecting it. The output is proved sorted, a subsequence of the
  sorted input, and idempotent. On valid (non-empty) spans it is pairwise
  disjoint with strictly ascending starts. Input that is already disjoint comes
  back exactly sorted. In sorted order, a span is dropped only when it meets a
  span kept before it; every other span is kept. On valid spans, a span
  contained in a different kept span is dropped, and of distinct spans with the
  same range only the first in input order can remain.
- **Name-type extraction** (`NameType`): `extractNameType` as the Java regular
  expression `(.+)-\w+` defines it. The result is stated against an independent
  "the whole outcome matches with the hyphen here" predicate, in both directions.
- **Finder orchestration** (`Finder`): construction from a loaded model, `find`,
  `clearAdaptiveData`, `probs()` and `probs(Span[])`. The finder's fields are an
  immutable state value; every call maps the old state to the new one.
- **Trainer dispatch** (`Training`, `IntParse`, `Artifact`): the beam-size
  setting (with a model of `Integer.parseInt`), the three-way trainer dispatch
  and the artifact it builds.
- **Factory selection** (`Factory`, `Features`): `create`, the codec choice,
  the descriptor choice, the resource lookup handed to the descriptor parser, the fallback to the default
  generator pipeline, and which failure becomes which exception.

Collaborators whose code is not part of this model are passed in as functions:
- the sequence model's `bestSequence`;
- the codec's `decode`;
- the three trainers and `TrainerFactory.getTrainerType`;
- reflection-based class loading, as a partial lookup from class name to instance;
- descriptor parsing (`GeneratorFactory.create`), as a function returning a
  generator or the failure it raised.

A Java `null` is `None` of `Option`. An exception is `Failure` of `Result`.

Adaptive feature state is modelled abstractly. A context generator records the
sequence of `(tokens, outcomes)` pairs it was told about through
`updateAdaptiveData` since the last `clearAdaptiveData`. Every adaptive
generator's state is a function of that history.

### Assumptions and observations

- **Span order.** `Span.compareTo` is not part of this model. The sort is
  assumed to order spans by ascending start and, at equal start, to put the
  LONGER span first. Spans with equal start and end keep their input order, as
  `Collections.sort` is stable and type tags are assumed not to be compared
  (`Spans.SortKeepsTies`). Only with the longer span first does the method
  comment's promise about contained spans have a chance to hold. Putting the
  longer span later is the alternative assumption; it is not modelled.
- **Intersection.** `Span.intersects` is modelled as half-open overlap. For
  non-empty spans this is the same as the Java definition, which also counts
  containment. On empty spans the two differ (see "Left out").
- **Contained spans.** The method comment says all spans contained by another
  are removed. That holds for spans contained in a KEPT span
  (`ContainedInKeptIsDropped`). It does not hold for a span contained in a
  DROPPED span: `ContainedInDroppedMaySurvive` shows that (5,6) survives among
  (0,3), (2,10), (5,6). This is a gap in the comment, not in the greedy
  algorithm, so the algorithm is modelled as written.
- **Resource lookup.** The descriptor parser receives a `ResourceLookup` value.
  It holds the entries the anonymous resource provider answers from: the
  model's artifacts when there is an artifact provider, otherwise the resource
  map, or a null map. A parser therefore cannot see the resource map of a
  factory that belongs to a loaded model (`Factory.ResourcesIgnoredWithProvider`).
- **`create(null, …)`.** It returns the plain default factory and ignores the
  descriptor bytes, resources and codec it is given (`Factory.Create`).
- **Legacy trainer path.** The event-model-sequence trainer path does not use
  the name type or the factory's codec
  (`Training.EventModelSequenceIgnoresTypeAndCodec`). The stored artifact always
  carries the factory's configured codec field. The event stream, however, uses
  `createSequenceCodec()`, which for a factory with an artifact provider may be
  a different codec.

## Model

| member | source | states |
|---|---|---|
| Spans.SortSpans | opennlp-tools/src/main/java/opennlp/tools/namefind/NameFinderME.java:522-524 | The copied and sorted list is in the assumed natural order and is a permutation (same multiset) of the input. |
| Spans.SortSortedIsIdentity | opennlp-tools/src/main/java/opennlp/tools/namefind/NameFinderME.java:524 | Sorting an already sorted list leaves it unchanged, as a stable sort must. |
| Spans.SortKeepsTies | opennlp-tools/src/main/java/opennlp/tools/namefind/NameFinderME.java:522-524 | For every range, the spans of the sorted list with that range appear in the same order as in the input, which is the stability `Collections.sort` guarantees. |
| Overlap.Pass | opennlp-tools/src/main/java/opennlp/tools/namefind/NameFinderME.java:526-542 | The greedy pass returns a subsequence of its input. Each kept span misses the one kept before it, and the first kept span misses the incoming `lastSpan`. With no last span the first span is kept. Sorted input gives sorted output. |
| Overlap.DropOverlappingSpans | opennlp-tools/src/main/java/opennlp/tools/namefind/NameFinderME.java:520-545 | The output is a sorted subsequence of the sorted input, no longer than the input, with neighbours disjoint. It starts with the first sorted span whenever the input is non-empty. |
| Overlap.DropOverlappingSpansDisjoint | opennlp-tools/src/main/java/opennlp/tools/namefind/NameFinderME.java:526-544 | On valid spans the output is pairwise non-intersecting. Each kept span ends before the next begins, so starts strictly ascend. |
| Overlap.DropOverlappingSpansIdempotent | opennlp-tools/src/main/java/opennlp/tools/namefind/NameFinderME.java:520-545 | Dropping overlaps twice gives the same result as once. |
| Overlap.DropOverlappingSpansOfDisjoint | opennlp-tools/src/main/java/opennlp/tools/namefind/NameFinderME.java:531-544 | Pairwise disjoint input comes back exactly sorted: nothing is dropped. |
| Overlap.PassDropsOnlyMeetingEarlier | opennlp-tools/src/main/java/opennlp/tools/namefind/NameFinderME.java:531-542 | A span the pass drops meets the incoming `lastSpan` or a span kept earlier in the sequence. So a span that misses both is kept. |
| Overlap.DroppedSpansIntersectKept | opennlp-tools/src/main/java/opennlp/tools/namefind/NameFinderME.java:531-544 | Every input span missing from the output intersects an output span. In sorted order, each dropped span intersects a span kept BEFORE it. |
| Overlap.ContainedInKeptIsDropped | opennlp-tools/src/main/java/opennlp/tools/namefind/NameFinderME.java:511-514 | A valid span contained in a different span that is kept is never itself kept. |
| Overlap.IdenticalRangeFirstRemains | opennlp-tools/src/main/java/opennlp/tools/namefind/NameFinderME.java:511-513 | Of distinct valid spans with the same range, any one after the first in sorted order is dropped. |
| Overlap.SameRangeFirstInInputRemains | opennlp-tools/src/main/java/opennlp/tools/namefind/NameFinderME.java:511-513 | Among distinct valid spans, a kept span is the first span of its range in input order. |
| Overlap.DropOverlappingSpansExample | opennlp-tools/src/main/java/opennlp/tools/namefind/NameFinderME.java:520-545 | Dropping overlaps from (0,3), (2,5), (6,8) returns exactly (0,3), (6,8). |
| Overlap.ContainedInDroppedMaySurvive | opennlp-tools/src/main/java/opennlp/tools/namefind/NameFinderME.java:514 | For (0,3), (2,10), (5,6) the result is (0,3), (5,6): a span inside a dropped span can remain. |
| Overlap.EmptySpansSurvive | opennlp-tools/src/main/java/opennlp/tools/namefind/NameFinderME.java:531-542 | Two copies of the empty span (3,3) both survive, and so do (0,5) and the empty (5,5) it contains, because half-open overlap does not make them meet. |
| NameType.ExtractNameType | opennlp-tools/src/main/java/opennlp/tools/namefind/NameFinderME.java:497-505 | A type is returned exactly when the whole outcome matches `(.+)-\w+`. It is then the text before the hyphen of the match, which is the last hyphen. Otherwise the result is null. |
| NameType.ExtractNameTypeExamples | opennlp-tools/src/main/java/opennlp/tools/namefind/NameFinderME.java:69 | "person-start" gives "person" and "org-unit-cont" gives "org-unit". "other", "-start" and "person-" give null. |
| IntParse.ParseInt | opennlp-tools/src/main/java/opennlp/tools/namefind/NameFinderME.java:304 | Text is accepted exactly when a non-empty digit string follows an optional `+` or `-` and the signed value fits in 32 bits. The result is then that signed value. |
| IntParse.ParseShowRoundTrip | opennlp-tools/src/main/java/opennlp/tools/namefind/NameFinderME.java:304 | Parsing the decimal rendering of any 32-bit int returns that int. |
| IntParse.ParseRejectsOverflow | opennlp-tools/src/main/java/opennlp/tools/namefind/NameFinderME.java:304 | The decimal rendering of a number above the 32-bit maximum or below the minimum is rejected. |
| IntParse.ParsePlusSign | opennlp-tools/src/main/java/opennlp/tools/namefind/NameFinderME.java:304 | A leading `+` before a digit string leaves the parse result unchanged. |
| IntParse.ParseLeadingZero | opennlp-tools/src/main/java/opennlp/tools/namefind/NameFinderME.java:304 | A leading zero after any sign, or after none, leaves the parse result unchanged. |
| IntParse.ParseIntExamples | opennlp-tools/src/main/java/opennlp/tools/namefind/NameFinderME.java:304 | "+5" gives 5, "007" gives 7 and "-0" gives 0. The empty string, a lone sign, "1a", "--1" and " 1" are rejected. |
| Training.BeamSizeOf | opennlp-tools/src/main/java/opennlp/tools/namefind/NameFinderME.java:300-305 | The beam size is 3 without the setting. With the setting it is the parsed value, or a NumberFormatException naming the text. |
| Training.BeamSizeSettingRoundTrip | opennlp-tools/src/main/java/opennlp/tools/namefind/NameFinderME.java:300-305 | A beam size stored as a 32-bit int setting is read back exactly. |
| Training.Train | opennlp-tools/src/main/java/opennlp/tools/namefind/NameFinderME.java:297-350 | Beam-size errors come first. An unknown trainer type is an IllegalStateException. Every artifact holds exactly one of (classifier with beam size) and (sequence model), with the factory's codec field and resources. The sequence trainer gives a sequence model. The two event trainers give a classifier with the computed beam size. Training succeeds exactly when the factory's context generator and, for the event trainer, its codec can be created. |
| Training.DefaultBeamSizeUsed | opennlp-tools/src/main/java/opennlp/tools/namefind/NameFinderME.java:302 | Without the beam-size setting, an event-trained artifact has beam size 3. |
| Training.TrainerInputsAndOutputs | opennlp-tools/src/main/java/opennlp/tools/namefind/NameFinderME.java:313-349 | The event trainer gets the samples, name type, factory context generator and factory codec. The event-model-sequence trainer gets the two-argument sequence stream. The sequence trainer gets the sequence stream without outcomes. Each trained model and its manifest entries are what the artifact stores, and the sequence-model artifact has no beam size. |
| Training.EventModelSequenceIgnoresTypeAndCodec | opennlp-tools/src/main/java/opennlp/tools/namefind/NameFinderME.java:322-330 | On the event-model-sequence path, the result does not depend on the name type or on codec resolution. |
| Finder.NewNameFinder | opennlp-tools/src/main/java/opennlp/tools/namefind/NameFinderME.java:86-98 | The codec comes from the factory. A codec failure, or a null codec when its validator is created, fails construction first. Then the factory's context generator is used, extended with one 8-by-8 window over the additional context. The adaptive history starts empty and there is no best sequence yet. |
| Finder.FreshFinder | opennlp-tools/src/main/java/opennlp/tools/namefind/NameFinderME.java:86-98 | A new finder's `probs()` fails. Its first query carries an empty adaptive history and the codec as validator. Its context generator is the factory's plus exactly one added 8-by-8 additional-context window. |
| Finder.Find | opennlp-tools/src/main/java/opennlp/tools/namefind/NameFinderME.java:220-231 | The additional context is installed before the model is queried. The answer becomes the best sequence. Exactly its outcomes are appended to the adaptive history and decoded into the returned spans. Codec, model and generators are unchanged. |
| Finder.FindTokens | opennlp-tools/src/main/java/opennlp/tools/namefind/NameFinderME.java:205-207 | `find(tokens)` is `find(tokens, EMPTY)`. |
| Finder.ClearAdaptive | opennlp-tools/src/main/java/opennlp/tools/namefind/NameFinderME.java:239-241 | Clearing empties the adaptive history and changes nothing else. |
| Finder.AdaptiveCarryOver | opennlp-tools/src/main/java/opennlp/tools/namefind/NameFinderME.java:220-241 | A second `find` shows the model the first call's outcomes through the context generator. After a clear in between, the model sees no history. The two queries differ. |
| Finder.Probs | opennlp-tools/src/main/java/opennlp/tools/namefind/NameFinderME.java:264-266 | `probs()` is the last best sequence's probabilities, and fails before any `find`. |
| Finder.ProbsAfterFind | opennlp-tools/src/main/java/opennlp/tools/namefind/NameFinderME.java:264-266 | After a `find`, `probs()` returns the probabilities of exactly the sequence that `find` decoded. |
| Finder.SpanProbs | opennlp-tools/src/main/java/opennlp/tools/namefind/NameFinderME.java:276-295 | One entry per span. Entry i is the arithmetic mean of the probabilities over [start_i, end_i). Every span must lie inside the sequence. |
| Finder.ProbsOfSpans | opennlp-tools/src/main/java/opennlp/tools/namefind/NameFinderME.java:276-295 | On the finder, the call fails before any `find`. Otherwise it gives the per-span means over the last sequence's probabilities. |
| Finder.SpanMeanExample | opennlp-tools/src/main/java/opennlp/tools/namefind/NameFinderME.java:268-274 | Probabilities 0.9, 0.8, 0.7, 0.6 and span [1,3) give 0.75. |
| Features.DefaultFeatureGenerator | opennlp-tools/src/main/java/opennlp/tools/namefind/NameFinderME.java:171-181 | The default pipeline is a cache over six generators. Every window in it looks two tokens back and two ahead, and none of them is the additional-context generator. |
| Factory.DefaultFactory | opennlp-tools/src/main/java/opennlp/tools/namefind/TokenNameFinderFactory.java:56-58 | The no-argument factory has the BIO codec, and no descriptor bytes, resources or artifact provider. |
| Factory.Init | opennlp-tools/src/main/java/opennlp/tools/namefind/TokenNameFinderFactory.java:65-69 | `init` sets the descriptor bytes, resources and codec to the given values and keeps the artifact provider. |
| Factory.Create | opennlp-tools/src/main/java/opennlp/tools/namefind/TokenNameFinderFactory.java:79-98 | A null class name gives the default factory: BIO codec, no bytes, resources or provider, whatever was passed. Otherwise the call fails exactly when the class cannot be instantiated, with an InvalidFormatException whose message names it. On success the instance carries the given bytes, resources and codec. |
| Factory.CreateFailureMessage | opennlp-tools/src/main/java/opennlp/tools/namefind/TokenNameFinderFactory.java:92-93 | The failure message contains the class name at a fixed position. |
| Factory.CreateWithoutNameIsDefault | opennlp-tools/src/main/java/opennlp/tools/namefind/TokenNameFinderFactory.java:79-84 | The factory `create` builds for a null class name creates the BIO codec, no feature generators and the default context generator, and has a null resource map, whatever arguments were passed. |
| Factory.CreatedFactoryUsesArguments | opennlp-tools/src/main/java/opennlp/tools/namefind/TokenNameFinderFactory.java:79-98 | A factory created by class name without a model hands back the given codec and reads the given descriptor bytes and resource map. |
| Factory.InstantiateSequenceCodec | opennlp-tools/src/main/java/opennlp/tools/namefind/TokenNameFinderFactory.java:189-200 | No name gives the BIO codec. A name gives the extension lookup's codec, or fails naming the class. |
| Factory.CreateSequenceCodec | opennlp-tools/src/main/java/opennlp/tools/namefind/TokenNameFinderFactory.java:105-115 | Without an artifact provider it returns the configured codec unchanged, null included. With one it instantiates the codec named in the manifest, with the same success or failure. |
| Factory.CodecFieldIgnoredWithProvider | opennlp-tools/src/main/java/opennlp/tools/namefind/TokenNameFinderFactory.java:105-115 | With an artifact provider, changing the configured codec field does not change the created codec. |
| Factory.ManifestCodec | opennlp-tools/src/main/java/opennlp/tools/namefind/TokenNameFinderFactory.java:105-115 | For a loaded model, a manifest without a codec name gives the BIO codec, and a loadable named codec gives that codec. |
| Factory.DescriptorBytes | opennlp-tools/src/main/java/opennlp/tools/namefind/TokenNameFinderFactory.java:140-147 | Explicit bytes win. Without them but with a provider, a missing artifact gives no descriptor, a byte-array artifact gives its bytes and any other artifact is a ClassCastException. Without either there is no descriptor. |
| Factory.ExplicitDescriptorWins | opennlp-tools/src/main/java/opennlp/tools/namefind/TokenNameFinderFactory.java:140-147 | With explicit bytes set, the descriptor is those bytes whatever artifact provider is present. |
| Factory.GetResource | opennlp-tools/src/main/java/opennlp/tools/namefind/TokenNameFinderFactory.java:156-162 | A lookup fails exactly on a null resource map, with a NullPointerException. Otherwise it returns the entry stored under the key, or null when there is none. |
| Factory.ResourceLookupOf | opennlp-tools/src/main/java/opennlp/tools/namefind/TokenNameFinderFactory.java:154-163 | The provider given to the descriptor parser answers every key from the model's artifacts when there is an artifact provider. Otherwise it answers from the resource map, and a null map makes every lookup fail. |
| Factory.CreateFeatureGenerators | opennlp-tools/src/main/java/opennlp/tools/namefind/TokenNameFinderFactory.java:138-187 | The result is null exactly when there is no descriptor. A descriptor parse failure is the fatal FeatureGeneratorCreationError and never null. An I/O failure is an IllegalStateException. Unchecked failures pass through. |
| Factory.CreateContextGenerator | opennlp-tools/src/main/java/opennlp/tools/namefind/TokenNameFinderFactory.java:117-126 | The result succeeds exactly when generator creation does. It falls back to `NameFinderME.createFeatureGenerator()` when there are no generators, and otherwise uses them. It starts with no added generators and no history. |
| Factory.ResourcesIgnoredWithProvider | opennlp-tools/src/main/java/opennlp/tools/namefind/TokenNameFinderFactory.java:149-163 | With an artifact provider, changing the resource map changes neither the feature generators nor the context generator. |
| Factory.ModelDescriptorDrivesContext | opennlp-tools/src/main/java/opennlp/tools/namefind/TokenNameFinderFactory.java:117-187 | A loaded model's descriptor artifact is parsed against the model's own artifacts. A parsed generator becomes the context generator, and a format error is a FeatureGeneratorCreationError. |

## Left out

- Deprecated constructors and `train` overloads (`NameFinderME.java` lines 112-169, 373-490) and the private `createFeatureGenerator(byte[], Map)` they use: they repeat the main paths with a hard-wired BIO codec.
- The beam search, the sequence models' `bestSequence`, the trainers, `TrainerFactory`, the codec's `encode`/`decode`/validator and `DefaultNameContextGenerator`: external numeric or string logic whose code is not part of this model. They are function parameters. The model does not assume that the outcome sequence has one label per token.
- The feature generator classes and descriptor parsing (`GeneratorFactory`): represented by generator values and an abstract parse function. Adaptive state is the history of observed sequences, not any particular generator's table.
- `Span`, `Span.compareTo` and `Span.intersects` are not part of this model. The assumed order and intersection are stated above.
- `TokenNameFinderModel` is not part of this model. `getNameFinderSequenceModel` and `getFactory` are the two fields of `LoadedModel`. Its constant entry and property names are placeholders.
- `probs(double[])`: it copies the same probabilities as `probs()` into a caller array (`Sequence.getProbs` is not part of this model).
- `validateArtifactMap` (a no-op), the two protected getters, and the `System.err` message and stack trace printed by `create`.
- `NameFinder` is a state value rather than a class: the finder is single-threaded and owns its adaptive state, so a value that each call replaces carries the same information.
- Overlap.DropOverlappingSpans: intersection is half-open overlap. `Span.intersects` also counts containment, so the two differ on empty spans (start equal to end). Two copies of an empty span both survive here, and so does an empty span at the end of a kept span that contains it (`Overlap.EmptySpansSurvive`). The disjointness, ascending-start, containment and same-range properties are therefore stated for valid, non-empty spans only.
- Finder.SpanProbs: uses exact `real` arithmetic instead of IEEE `double`. It requires non-empty spans inside the sequence: the Java loop would throw on out-of-range spans and divide by zero on empty ones.
- Finder.ProbsOfSpans: runs the same loop, so it has the same `real` arithmetic and the same requirement of non-empty spans inside the last sequence.
- IntParse.ParseInt: accepts only the ASCII digits 0-9. `Integer.parseInt` also accepts other Unicode decimal digits.
- NameType.ExtractNameType: works on Unicode scalar values where Java strings are UTF-16. `Pattern` matches by code point, so the answer is the same; this is not proved.
- Training.Train: assumes each trainer returns a model. A trainer returning null, or failing to be created from the settings, is not modelled.

=== FILE: artifact.dfy ===
/** The trained models and the model artifact (`TokenNameFinderModel`) as the
    name finder and the trainer dispatch see them. `TokenNameFinderModel`
    itself is not part of this model; only the constructor arguments `train`
    passes and the two accessors the finder uses are represented. */
module Artifact {
  import opened Wrappers
  import opened Factory

  /** A per-position classifier (`MaxentModel`), identified by name. */
  datatype Classifier = Classifier(name: string)

  /** A model that decodes a best label sequence itself
      (`SequenceClassificationModel`), identified by name. */
  datatype SequenceModel = SequenceModel(name: string)

  /** The arguments of the `TokenNameFinderModel` constructors used by
      `train`: the sequence-model constructor leaves `classifier` and
      `beamSize` null, the classifier constructor leaves `sequenceModel`
      null. `generatorDescriptor` is the descriptor argument, passed as null. */
  datatype NameFinderModel = NameFinderModel(
    languageCode: string,
    sequenceModel: Option<SequenceModel>,
    classifier: Option<Classifier>,
    beamSize: Option<int>,
    generatorDescriptor: Option<seq<byte>>,
    resources: Option<map<string, Resource>>,
    manifest: map<string, string>,
    seqCodec: Option<SequenceCodec>)

  /** A loaded model as the finder's constructor uses it: its factory (with
      the model as artifact provider) and its sequence model. */
  datatype LoadedModel = LoadedModel(factory: NameFinderFactory, nameFinderSequenceModel: SequenceModel)
}

=== FILE: factory.dfy ===
/** `TokenNameFinderFactory`: chooses the sequence codec, the feature
    generator descriptor and the source of named resources, either from a
    loaded model (its artifact provider) or from the values given at training
    time, and maps the failures of those choices to exceptions.

    Reflection (`ExtensionLoader.instantiateExtension`) is a partial lookup
    from class name to instance passed in as a function, and descriptor
    parsing (`GeneratorFactory.create`) is a function passed in that returns a
    generator or the failure it raised. */
module Factory {
  import opened Wrappers
  import opened Errors
  import opened Features

  newtype byte = b: int | 0 <= b < 256

  /** An object stored in a model or a resource map: a byte array, or any
      other object, identified by name. */
  datatype Resource = Bytes(data: seq<byte>) | Object(name: string)

  /** A sequence codec, identified by implementation. */
  datatype SequenceCodec = BioCodec | CodecImpl(className: string)

  /** What a loaded model offers the factory: manifest properties and the
      artifacts stored under their entry names. */
  datatype ArtifactProvider = ArtifactProvider(manifest: map<string, string>, artifacts: map<string, Resource>)

  /** The factory's state; `None` stands for a null field. `artifactProvider`
      is the field inherited from `BaseToolFactory`, set when the factory
      belongs to a loaded model. */
  datatype NameFinderFactory = NameFinderFactory(
    featureGeneratorBytes: Option<seq<byte>>,
    resources: Option<map<string, Resource>>,
    seqCodec: Option<SequenceCodec>,
    artifactProvider: Option<ArtifactProvider>)

  /** Entry and property names owned by `TokenNameFinderModel`, which is not
      part of this model; no proof depends on their values. */
  const GeneratorDescriptorEntryName: string := "generator.featuregen"
  const SequenceCodecClassNameParameter: string := "sequenceCodecImplName"

  /** `new TokenNameFinderFactory()`: only the codec is set, to a BIO codec. */
  function DefaultFactory(): (f: NameFinderFactory)
    ensures f.seqCodec == Some(BioCodec)
    ensures f.featureGeneratorBytes.None? && f.resources.None? && f.artifactProvider.None?
  {
    NameFinderFactory(None, None, Some(BioCodec), None)
  }

  /** `init(featureGeneratorBytes, resources, seqCodec)`: overwrites the three
      configured fields and leaves the artifact provider alone. */
  function Init(f: NameFinderFactory, featureGeneratorBytes: Option<seq<byte>>,
                resources: Option<map<string, Resource>>, seqCodec: Option<SequenceCodec>): (r: NameFinderFactory)
    ensures r.featureGeneratorBytes == featureGeneratorBytes && r.resources == resources && r.seqCodec == seqCodec
    ensures r.artifactProvider == f.artifactProvider
  {
    f.(featureGeneratorBytes := featureGeneratorBytes, resources := resources, seqCodec := seqCodec)
  }

  const CreateFailurePrefix: string := "Could not instantiate the "
  const CreateFailureSuffix: string := ". The initialization throw an exception."

  /** The message of the exception `create` raises; it names the class. */
  function CreateFailureMessage(subclassName: string): (m: string)
    ensures |m| == |CreateFailurePrefix| + |subclassName| + |CreateFailureSuffix|
    ensures m[|CreateFailurePrefix|..|CreateFailurePrefix| + |subclassName|] == subclassName
  {
    CreateFailurePrefix + subclassName + CreateFailureSuffix
  }

  /** `TokenNameFinderFactory.create`. A null class name gives the default
      factory and IGNORES the other three arguments. Otherwise the class is
      instantiated and initialised with them; a failed instantiation is an
      `InvalidFormatException` naming the class. */
  function Create(subclassName: Option<string>, featureGeneratorBytes: Option<seq<byte>>,
                  resources: Option<map<string, Resource>>, seqCodec: Option<SequenceCodec>,
                  instantiate: string -> Option<NameFinderFactory>): (r: Result<NameFinderFactory, Error>)
    ensures subclassName.None? ==> r.Success? && r.value.seqCodec == Some(BioCodec)
    ensures subclassName.None? ==> r.value.featureGeneratorBytes.None? && r.value.resources.None?
                                   && r.value.artifactProvider.None?
    ensures subclassName.Some? ==> (r.Failure? <==> instantiate(subclassName.value).None?)
    ensures subclassName.Some? && r.Failure? ==> r.error == InvalidFormat(CreateFailureMessage(subclassName.value))
    ensures subclassName.Some? && r.Success? ==>
              && r.value.featureGeneratorBytes == featureGeneratorBytes
              && r.value.resources == resources
              && r.value.seqCodec == seqCodec
              && r.value.artifactProvider == instantiate(subclassName.value).value.artifactProvider
  {
    match subclassName
    case None => Success(DefaultFactory())
    case Some(name) =>
      match instantiate(name)
      case None => Failure(InvalidFormat(CreateFailureMessage(name)))
      case Some(theFactory) => Success(Init(theFactory, featureGeneratorBytes, resources, seqCodec))
  }

  /** `instantiateSequenceCodec`: no name means the BIO codec; a name is
      resolved by the extension lookup, and an unknown name fails. */
  function InstantiateSequenceCodec(implName: Option<string>, lookup: string -> Option<SequenceCodec>): (r: Result<SequenceCodec, Error>)
    ensures implName.None? ==> r == Success(BioCodec)
    ensures implName.Some? && lookup(implName.value).Some? ==> r == Success(lookup(implName.value).value)
    ensures implName.Some? && lookup(implName.value).None? ==> r == Failure(ExtensionNotLoaded(implName.value))
  {
    match implName
    case None => Success(BioCodec)
    case Some(name) =>
      match lookup(name)
      case Some(codec) => Success(codec)
      case None => Failure(ExtensionNotLoaded(name))
  }

  /** `createSequenceCodec`: a loaded model's manifest names the codec and the
      configured `seqCodec` field is not consulted; without a provider the
      field is returned unchanged, null included. */
  function CreateSequenceCodec(f: NameFinderFactory, lookup: string -> Option<SequenceCodec>): (r: Result<Option<SequenceCodec>, Error>)
    ensures f.artifactProvider.None? ==> r == Success(f.seqCodec)
    ensures f.artifactProvider.Some? ==>
              var named := InstantiateSequenceCodec(Get(f.artifactProvider.value.manifest, SequenceCodecClassNameParameter), lookup);
              (r.Success? <==> named.Success?) &&
              (r.Success? ==> r.value == Some(named.value)) &&
              (r.Failure? ==> r.error == named.error)
  {
    match f.artifactProvider
    case None => Success(f.seqCodec)
    case Some(provider) =>
      var codec :- InstantiateSequenceCodec(Get(provider.manifest, SequenceCodecClassNameParameter), lookup);
      Success(Some(codec))
  }

  /** With an artifact provider the configured codec field has no effect. */
  lemma CodecFieldIgnoredWithProvider(f: NameFinderFactory, other: Option<SequenceCodec>, lookup: string -> Option<SequenceCodec>)
    requires f.artifactProvider.Some?
    ensures CreateSequenceCodec(f.(seqCodec := other), lookup) == CreateSequenceCodec(f, lookup)
  {
  }

  /** The descriptor `createFeatureGenerators` reads: the explicit bytes when
      set, else the model's generator descriptor artifact when there is a
      provider, else none. A descriptor artifact that is not a byte array
      fails the `(byte[])` cast. */
  function DescriptorBytes(f: NameFinderFactory): (r: Result<Option<seq<byte>>, Error>)
    ensures f.featureGeneratorBytes.Some? ==> r == Success(f.featureGeneratorBytes)
    ensures f.featureGeneratorBytes.None? && f.artifactProvider.None? ==> r == Success(None)
    ensures f.featureGeneratorBytes.None? && f.artifactProvider.Some? ==>
              var entry := Get(f.artifactProvider.value.artifacts, GeneratorDescriptorEntryName);
              && (entry.None? ==> r == Success(None))
              && (entry.Some? && entry.value.Bytes? ==> r == Success(Some(entry.value.data)))
              && (entry.Some? && entry.value.Object? ==> r == Failure(ClassCast))
    ensures r.Success? && r.value.Some? && f.featureGeneratorBytes.None? ==>
              && f.artifactProvider.Some?
              && Get(f.artifactProvider.value.artifacts, GeneratorDescriptorEntryName) == Some(Bytes(r.value.value))
    ensures r.Failure? ==> r.error == ClassCast
  {
    if f.featureGeneratorBytes.None? && f.artifactProvider.Some? then
      var entry: Option<Resource> := Get(f.artifactProvider.value.artifacts, GeneratorDescriptorEntryName);
      match entry
      case None => Success(None)
      case Some(Bytes(data)) => Success(Some(data))
      case Some(Object(_)) => Failure(ClassCast)
    else
      Success(f.featureGeneratorBytes)
  }

  /** Explicit descriptor bytes win over whatever a model provides. */
  lemma ExplicitDescriptorWins(f: NameFinderFactory, provider: Option<ArtifactProvider>)
    requires f.featureGeneratorBytes.Some?
    ensures DescriptorBytes(f.(artifactProvider := provider)) == Success(f.featureGeneratorBytes)
  {
  }

  /** What the resource provider handed to the descriptor parser can answer:
      the entries it looks keys up in, or a null resource map, on which every
      lookup fails. Two providers that answer every key alike are the same
      value, so a parser given one cannot tell where its entries came from. */
  datatype ResourceLookup = Entries(entries: map<string, Resource>) | NullMap

  /** `getResource(key)` of the provider. */
  function GetResource(l: ResourceLookup, key: string): (r: Result<Option<Resource>, Error>)
    ensures r.Failure? <==> l.NullMap?
    ensures r.Failure? ==> r.error == NullPointer
    ensures r.Success? ==> (r.value.Some? <==> key in l.entries)
    ensures r.Success? && r.value.Some? ==> r.value.value == l.entries[key]
  {
    match l
    case NullMap => Failure(NullPointer)
    case Entries(m) => Success(Get(m, key))
  }

  /** The provider `createFeatureGenerators` builds from the factory: the
      model's artifacts when there is an artifact provider, otherwise the
      resource map, which is dereferenced without a null check. */
  function ResourceLookupOf(f: NameFinderFactory): (l: ResourceLookup)
    ensures forall key :: f.artifactProvider.Some? ==>
              GetResource(l, key) == Success(Get(f.artifactProvider.value.artifacts, key))
    ensures forall key :: f.artifactProvider.None? && f.resources.Some? ==>
              GetResource(l, key) == Success(Get(f.resources.value, key))
    ensures forall key :: f.artifactProvider.None? && f.resources.None? ==>
              GetResource(l, key) == Failure(NullPointer)
  {
    match f.artifactProvider
    case Some(provider) => Entries(provider.artifacts)
    case None =>
      match f.resources
      case None => NullMap
      case Some(m) => Entries(m)
  }

  /** What descriptor parsing yields: a generator, an invalid-format failure,
      an I/O failure, or an unchecked exception that passes through. */
  datatype ParseOutcome =
    | Parsed(generator: FeatureGenerator)
    | BadFormat(message: string)
    | ReadFailure(message: string)
    | Unchecked(error: Error)

  const MemoryReadMessage: string := "Reading from mem cannot result in an I/O error"

  /** `createFeatureGenerators`: null exactly when there is no descriptor. A
      descriptor that fails to parse is the fatal
      `FeatureGeneratorCreationError`, never a null result. */
  function CreateFeatureGenerators(f: NameFinderFactory, parse: (seq<byte>, ResourceLookup) -> ParseOutcome): (r: Result<Option<FeatureGenerator>, Error>)
    ensures DescriptorBytes(f).Failure? ==> r == Failure(ClassCast)
    ensures r == Success(None) <==> DescriptorBytes(f) == Success(None)
    ensures DescriptorBytes(f).Success? && DescriptorBytes(f).value.Some? ==>
              var outcome := parse(DescriptorBytes(f).value.value, ResourceLookupOf(f));
              && (outcome.Parsed? <==> r.Success?)
              && (outcome.Parsed? ==> r == Success(Some(outcome.generator)))
              && (outcome.BadFormat? ==> r == Failure(FeatureGeneratorCreation(outcome.message)))
              && (outcome.ReadFailure? ==> r == Failure(IllegalState(MemoryReadMessage)))
              && (outcome.Unchecked? ==> r == Failure(outcome.error))
  {
    var descriptor :- DescriptorBytes(f);
    match descriptor
    case None => Success(None)
    case Some(data) =>
      match parse(data, ResourceLookupOf(f))
      case Parsed(g) => Success(Some(g))
      case BadFormat(m) => Failure(FeatureGeneratorCreation(m))
      case ReadFailure(_) => Failure(IllegalState(MemoryReadMessage))
      case Unchecked(e) => Failure(e)
  }

  /** `createContextGenerator`: a context generator over the configured
      generators, falling back to `NameFinderME.createFeatureGenerator()`
      exactly when there are none; failures pass through. */
  function CreateContextGenerator(f: NameFinderFactory, parse: (seq<byte>, ResourceLookup) -> ParseOutcome): (r: Result<ContextGenerator, Error>)
    ensures r.Success? <==> CreateFeatureGenerators(f, parse).Success?
    ensures r.Failure? ==> r.error == CreateFeatureGenerators(f, parse).error
    ensures r.Success? ==> r.value.added == [] && r.value.history == []
    ensures r.Success? && CreateFeatureGenerators(f, parse).value.None? ==>
              r.value.generator == DefaultFeatureGenerator()
    ensures r.Success? && CreateFeatureGenerators(f, parse).value.Some? ==>
              r.value.generator == CreateFeatureGenerators(f, parse).value.value
  {
    var generators :- CreateFeatureGenerators(f, parse);
    var generator := if generators.None? then DefaultFeatureGenerator() else generators.value;
    Success(NewContextGenerator(generator))
  }

  /** The factory `create` builds without a class name behaves as the default:
      the BIO codec, no descriptor, and the default generator pipeline,
      whatever bytes, resources and codec were passed. */
  lemma CreateWithoutNameIsDefault(featureGeneratorBytes: Option<seq<byte>>, resources: Option<map<string, Resource>>,
                                   seqCodec: Option<SequenceCodec>, instantiate: string -> Option<NameFinderFactory>,
                                   lookup: string -> Option<SequenceCodec>,
                                   parse: (seq<byte>, ResourceLookup) -> ParseOutcome)
    ensures var f := Create(None, featureGeneratorBytes, resources, seqCodec, instantiate).value;
            && CreateSequenceCodec(f, lookup) == Success(Some(BioCodec))
            && CreateFeatureGenerators(f, parse) == Success(None)
            && CreateContextGenerator(f, parse) == Success(NewContextGenerator(DefaultFeatureGenerator()))
            && ResourceLookupOf(f) == NullMap
  {
  }

  /** A factory created by class name for training (no artifact provider)
      hands back the codec it was given and reads its descriptor and
      resources from the arguments. */
  lemma CreatedFactoryUsesArguments(name: string, featureGeneratorBytes: Option<seq<byte>>,
                                    resources: Option<map<string, Resource>>, seqCodec: Option<SequenceCodec>,
                                    instantiate: string -> Option<NameFinderFactory>,
                                    lookup: string -> Option<SequenceCodec>)
    requires instantiate(name).Some? && instantiate(name).value.artifactProvider.None?
    ensures var r := Create(Some(name), featureGeneratorBytes, resources, seqCodec, instantiate);
            && r.Success?
            && CreateSequenceCodec(r.value, lookup) == Success(seqCodec)
            && DescriptorBytes(r.value) == Success(featureGeneratorBytes)
            && ResourceLookupOf(r.value) == (if resources.Some? then Entries(resources.value) else NullMap)
  {
  }

  /** A loaded model whose manifest names no codec decodes with the BIO codec;
      one that names a loadable codec decodes with that codec. */
  lemma ManifestCodec(f: NameFinderFactory, lookup: string -> Option<SequenceCodec>)
    requires f.artifactProvider.Some?
    ensures SequenceCodecClassNameParameter !in f.artifactProvider.value.manifest ==>
              CreateSequenceCodec(f, lookup) == Success(Some(BioCodec))
    ensures SequenceCodecClassNameParameter in f.artifactProvider.value.manifest
            && lookup(f.artifactProvider.value.manifest[SequenceCodecClassNameParameter]).Some? ==>
              CreateSequenceCodec(f, lookup)
              == Success(lookup(f.artifactProvider.value.manifest[SequenceCodecClassNameParameter]))
  {
  }

  /** With an artifact provider the configured resource map has no effect on
      the generators: the descriptor parser sees only the model's artifacts. */
  lemma ResourcesIgnoredWithProvider(f: NameFinderFactory, other: Option<map<string, Resource>>,
                                     parse: (seq<byte>, ResourceLookup) -> ParseOutcome)
    requires f.artifactProvider.Some?
    ensures CreateFeatureGenerators(f.(resources := other), parse) == CreateFeatureGenerators(f, parse)
    ensures CreateContextGenerator(f.(resources := other), parse) == CreateContextGenerator(f, parse)
  {
  }

  /** A loaded model's descriptor artifact is parsed against the model's own
      artifacts, and the parsed generator drives the context generator. */
  lemma ModelDescriptorDrivesContext(f: NameFinderFactory, parse: (seq<byte>, ResourceLookup) -> ParseOutcome)
    requires f.featureGeneratorBytes.None? && f.artifactProvider.Some?
    requires Get(f.artifactProvider.value.artifacts, GeneratorDescriptorEntryName).Some?
    requires Get(f.artifactProvider.value.artifacts, GeneratorDescriptorEntryName).value.Bytes?
    ensures var d := Get(f.artifactProvider.value.artifacts, GeneratorDescriptorEntryName).value.data;
            var outcome := parse(d, Entries(f.artifactProvider.value.artifacts));
            && (outcome.Parsed? ==> CreateContextGenerator(f, parse) == Success(NewContextGenerator(outcome.generator)))
            && (outcome.BadFormat? ==> CreateContextGenerator(f, parse) == Failure(FeatureGeneratorCreation(outcome.message)))
  {
  }
}

=== FILE: features.dfy ===
/** Feature generators and the name context generator, as values. The
    generator classes and `DefaultNameContextGenerator` are not part of this
    model: a generator is represented by its construction, and the adaptive
    state every adaptive generator keeps is represented by the history of
    completed sequences it has been told about since it was last cleared. */
module Features {

  /** A feature generator, named after the class that builds it. */
  datatype FeatureGenerator =
    | Cached(generators: seq<FeatureGenerator>)
    | Window(generator: FeatureGenerator, previousWindowSize: nat, nextWindowSize: nat)
    | TokenFeatures
    | TokenClassFeatures(generateWordAndClassFeature: bool)
    | OutcomePriorFeatures
    | PreviousMapFeatures
    | BigramNameFeatures
    | SentenceFeatures(generateFirstWordFeature: bool, generateLastWordFeature: bool)
    | AdditionalContextFeatures
    /** A generator built by the descriptor parser, which is not part of this model. */
    | Described(name: string)

  /** `NameFinderME.createFeatureGenerator()`: the pipeline used when no
      descriptor is configured, a cache over six generators whose two windows
      look two tokens either way. The additional-context window is not part
      of it; the finder adds that itself. */
  function DefaultFeatureGenerator(): (g: FeatureGenerator)
    ensures g.Cached? && |g.generators| == 6
    ensures forall i :: 0 <= i < 6 && g.generators[i].Window? ==>
              g.generators[i].previousWindowSize == 2 && g.generators[i].nextWindowSize == 2
    ensures forall i :: 0 <= i < 6 ==> g.generators[i] != AdditionalContextFeatures
    ensures forall i :: 0 <= i < 6 && g.generators[i].Window? ==>
              g.generators[i].generator != AdditionalContextFeatures
  {
    Cached([
      Window(TokenFeatures, 2, 2),
      Window(TokenClassFeatures(true), 2, 2),
      OutcomePriorFeatures,
      PreviousMapFeatures,
      BigramNameFeatures,
      SentenceFeatures(true, false)
    ])
  }

  /** One completed sequence reported through `updateAdaptiveData`. */
  datatype Observation = Observation(tokens: seq<string>, outcomes: seq<string>)

  /** A name context generator: its main feature generator, the generators
      added to it afterwards, and the adaptive history since the last clear. */
  datatype ContextGenerator = ContextGenerator(
    generator: FeatureGenerator,
    added: seq<FeatureGenerator>,
    history: seq<Observation>)

  /** `new DefaultNameContextGenerator(generator)`: nothing observed yet. */
  function NewContextGenerator(generator: FeatureGenerator): ContextGenerator
  {
    ContextGenerator(generator, [], [])
  }

  /** `addFeatureGenerator`: appends one generator, keeping the history. */
  function AddFeatureGenerator(cg: ContextGenerator, g: FeatureGenerator): ContextGenerator
  {
    cg.(added := cg.added + [g])
  }

  /** `updateAdaptiveData(tokens, outcomes)`: records one more sequence. */
  function UpdateAdaptiveData(cg: ContextGenerator, tokens: seq<string>, outcomes: seq<string>): (r: ContextGenerator)
    ensures r.generator == cg.generator && r.added == cg.added
    ensures |r.history| == |cg.history| + 1
    ensures r.history[..|cg.history|] == cg.history
    ensures r.history[|cg.history|] == Observation(tokens, outcomes)
  {
    cg.(history := cg.history + [Observation(tokens, outcomes)])
  }

  /** `clearAdaptiveData()`: forgets every recorded sequence. */
  function ClearAdaptiveData(cg: ContextGenerator): ContextGenerator
  {
    cg.(history := [])
  }
}

=== FILE: finder.dfy ===
/** The inference side of `NameFinderME`: construction from a loaded model,
    `find`, `clearAdaptiveData` and the probability accessors.

    The finder's mutable fields are modelled as an immutable state value and
    every mutating call as a function from the old state to the new one. The
    best-sequence search (beam search or a native sequence model) and the
    codec's `decode` are collaborators passed in as functions. */
module Finder {
  import opened Wrappers
  import opened Errors
  import opened Spans
  import opened Features
  import opened Factory
  import opened Artifact

  /** `Sequence`: the best outcome sequence and its per-token probabilities. */
  datatype BestSequence = BestSequence(outcomes: seq<string>, probs: seq<real>)

  /** Everything `bestSequence` can depend on: the tokens, the additional
      context argument, the context generator (with its adaptive history), the
      context the additional-context generator currently holds, and the
      validator, which is created from the codec. */
  datatype Query = Query(
    tokens: seq<string>,
    additionalContext: seq<seq<string>>,
    contextGenerator: ContextGenerator,
    currentContext: seq<seq<string>>,
    validatorOf: SequenceCodec)

  /** The external collaborators: the model's `bestSequence` and the codec's
      `decode`. */
  datatype Collaborators = Collaborators(
    bestSequence: (SequenceModel, Query) -> BestSequence,
    decode: (SequenceCodec, seq<string>) -> seq<Span>)

  /** The fields of a `NameFinderME`. `currentContext` is the context held by
      its additional-context feature generator; `bestSequence` is null until
      the first `find`. */
  datatype NameFinder = NameFinder(
    codec: SequenceCodec,
    model: SequenceModel,
    contextGenerator: ContextGenerator,
    currentContext: seq<seq<string>>,
    bestSequence: Option<BestSequence>)

  /** `EMPTY`, the additional context of the one-argument `find`. */
  const Empty: seq<seq<string>> := []

  /** Both window sizes of the additional-context generator. */
  const AdditionalContextWindowSize: nat := 8

  /** `new NameFinderME(model)`: the codec comes from the factory (a null
      codec fails when its validator is created), then the factory's context
      generator, extended with an 8/8 window over the additional context. */
  function NewNameFinder(m: LoadedModel, lookup: string -> Option<SequenceCodec>,
                         parse: (seq<byte>, ResourceLookup) -> ParseOutcome): (r: Result<NameFinder, Error>)
    ensures CreateSequenceCodec(m.factory, lookup).Failure? ==> r == Failure(CreateSequenceCodec(m.factory, lookup).error)
    ensures CreateSequenceCodec(m.factory, lookup) == Success(None) ==> r == Failure(NullPointer)
    ensures CreateSequenceCodec(m.factory, lookup).Success? && CreateSequenceCodec(m.factory, lookup).value.Some? ==>
              && (r.Success? <==> CreateContextGenerator(m.factory, parse).Success?)
              && (r.Failure? ==> r.error == CreateContextGenerator(m.factory, parse).error)
    ensures r.Success? ==>
              && Some(r.value.codec) == CreateSequenceCodec(m.factory, lookup).value
              && r.value.model == m.nameFinderSequenceModel
              && r.value.contextGenerator.generator == CreateContextGenerator(m.factory, parse).value.generator
              && r.value.contextGenerator.added == [Window(AdditionalContextFeatures, AdditionalContextWindowSize, AdditionalContextWindowSize)]
              && r.value.contextGenerator.history == []
              && r.value.bestSequence.None?
  {
    var codec :- CreateSequenceCodec(m.factory, lookup);
    if codec.None? then Failure(NullPointer)
    else
      var cg :- CreateContextGenerator(m.factory, parse);
      var window := Window(AdditionalContextFeatures, AdditionalContextWindowSize, AdditionalContextWindowSize);
      Success(NameFinder(codec.value, m.nameFinderSequenceModel, AddFeatureGenerator(cg, window), Empty, None))
  }

  /** A freshly built finder has no best sequence, so `probs()` fails; its
      first `find` asks the model with an empty adaptive history and the
      finder's codec as validator, and the window over the additional context
      is the only generator added to the factory's pipeline. */
  lemma FreshFinder(m: LoadedModel, lookup: string -> Option<SequenceCodec>,
                    parse: (seq<byte>, ResourceLookup) -> ParseOutcome,
                    tokens: seq<string>, x: seq<seq<string>>)
    requires NewNameFinder(m, lookup, parse).Success?
    ensures var f := NewNameFinder(m, lookup, parse).value;
            && Probs(f) == Failure(NullPointer)
            && QueryFor(f, tokens, x).contextGenerator.history == []
            && Some(QueryFor(f, tokens, x).validatorOf) == CreateSequenceCodec(m.factory, lookup).value
            && QueryFor(f, tokens, x).contextGenerator ==
                 AddFeatureGenerator(CreateContextGenerator(m.factory, parse).value,
                                     Window(AdditionalContextFeatures, AdditionalContextWindowSize, AdditionalContextWindowSize))
  {
  }

  /** The result of `find`: the finder's new state and the returned spans. */
  datatype FindResult = FindResult(finder: NameFinder, spans: seq<Span>)

  /** The query `find(tokens, additionalContext)` puts to the model from
      state `f`: the additional context is installed first, so the model sees
      it both as argument and through the context generator. */
  function QueryFor(f: NameFinder, tokens: seq<string>, additionalContext: seq<seq<string>>): Query
  {
    Query(tokens, additionalContext, f.contextGenerator, additionalContext, f.codec)
  }

  /** `find(tokens, additionalContext)`. The model's answer becomes the new
      best sequence; exactly its outcomes are reported to the adaptive
      generators and decoded into the returned spans. */
  function Find(f: NameFinder, tokens: seq<string>, additionalContext: seq<seq<string>>, c: Collaborators): (r: FindResult)
    ensures r.finder.currentContext == additionalContext
    ensures r.finder.bestSequence == Some(c.bestSequence(f.model, QueryFor(f, tokens, additionalContext)))
    ensures r.finder.contextGenerator.history ==
              f.contextGenerator.history + [Observation(tokens, r.finder.bestSequence.value.outcomes)]
    ensures r.spans == c.decode(f.codec, r.finder.bestSequence.value.outcomes)
    ensures r.finder.codec == f.codec && r.finder.model == f.model
    ensures r.finder.contextGenerator.generator == f.contextGenerator.generator
    ensures r.finder.contextGenerator.added == f.contextGenerator.added
  {
    var withContext := f.(currentContext := additionalContext);
    var best := c.bestSequence(withContext.model, QueryFor(f, tokens, additionalContext));
    var cg := UpdateAdaptiveData(withContext.contextGenerator, tokens, best.outcomes);
    FindResult(withContext.(bestSequence := Some(best), contextGenerator := cg), c.decode(withContext.codec, best.outcomes))
  }

  /** `find(tokens)`: the same as finding with the empty additional context. */
  function FindTokens(f: NameFinder, tokens: seq<string>, c: Collaborators): (r: FindResult)
    ensures r == Find(f, tokens, Empty, c)
    ensures r.finder.currentContext == []
  {
    Find(f, tokens, Empty, c)
  }

  /** `clearAdaptiveData()`: forgets the adaptive history; nothing else changes. */
  function ClearAdaptive(f: NameFinder): (r: NameFinder)
    ensures r.contextGenerator.history == []
    ensures r.contextGenerator.generator == f.contextGenerator.generator
    ensures r.contextGenerator.added == f.contextGenerator.added
    ensures r.codec == f.codec && r.model == f.model
    ensures r.currentContext == f.currentContext && r.bestSequence == f.bestSequence
  {
    f.(contextGenerator := ClearAdaptiveData(f.contextGenerator))
  }

  /** Adaptive carry-over: a second `find` shows the model the outcomes of
      the first one through the context generator, unless the adaptive data
      was cleared in between, in which case the model sees no history at
      all. The two queries therefore differ. */
  lemma AdaptiveCarryOver(f: NameFinder, t1: seq<string>, x1: seq<seq<string>>,
                          t2: seq<string>, x2: seq<seq<string>>, c: Collaborators)
    ensures var first := Find(f, t1, x1, c).finder;
            && QueryFor(first, t2, x2).contextGenerator.history ==
                 f.contextGenerator.history + [Observation(t1, first.bestSequence.value.outcomes)]
            && QueryFor(ClearAdaptive(first), t2, x2).contextGenerator.history == []
            && QueryFor(first, t2, x2) != QueryFor(ClearAdaptive(first), t2, x2)
  {
  }

  /** `probs()`: the probabilities of the last decoded sequence; before any
      `find` the best sequence is null and the call fails. */
  function Probs(f: NameFinder): (r: Result<seq<real>, Error>)
    ensures f.bestSequence.None? ==> r == Failure(NullPointer)
    ensures f.bestSequence.Some? ==> r == Success(f.bestSequence.value.probs)
  {
    match f.bestSequence
    case None => Failure(NullPointer)
    case Some(best) => Success(best.probs)
  }

  /** After a `find`, `probs()` returns the probabilities of exactly the
      sequence that `find` decoded. */
  lemma ProbsAfterFind(f: NameFinder, tokens: seq<string>, x: seq<seq<string>>, c: Collaborators)
    ensures Probs(Find(f, tokens, x, c).finder) ==
              Success(c.bestSequence(f.model, QueryFor(f, tokens, x)).probs)
  {
  }

  /** The sum of a sequence of probabilities, left to right. */
  function Sum(s: seq<real>): real
  {
    if |s| == 0 then 0.0 else Sum(s[..|s| - 1]) + s[|s| - 1]
  }

  /** The arithmetic mean of the probabilities a span covers. */
  function SpanMean(probs: seq<real>, span: Span): real
    requires 0 <= span.start < span.end <= |probs|
  {
    Sum(probs[span.start..span.end]) / ((span.end - span.start) as real)
  }

  /** Every span covers at least one position inside the sequence. */
  predicate SpansWithin(spans: seq<Span>, length: int) {
    forall i :: 0 <= i < |spans| ==> 0 <= spans[i].start < spans[i].end <= length
  }

  /** The loop of `probs(Span[])`: entry `i` is the mean probability over
      `[start_i, end_i)`. */
  method SpanProbs(probs: seq<real>, spans: seq<Span>) returns (sprobs: seq<real>)
    requires SpansWithin(spans, |probs|)
    ensures |sprobs| == |spans|
    ensures forall i :: 0 <= i < |spans| ==> sprobs[i] == SpanMean(probs, spans[i])
  {
    sprobs := [];
    var si := 0;
    while si < |spans|
      invariant 0 <= si <= |spans|
      invariant |sprobs| == si
      invariant forall i :: 0 <= i < si ==> sprobs[i] == SpanMean(probs, spans[i])
    {
      var p: real := 0.0;
      var oi := spans[si].start;
      while oi < spans[si].end
        invariant spans[si].start <= oi <= spans[si].end
        invariant p == Sum(probs[spans[si].start..oi])
      {
        assert probs[spans[si].start..oi + 1][..oi - spans[si].start] == probs[spans[si].start..oi];
        p := p + probs[oi];
        oi := oi + 1;
      }
      p := p / (spans[si].Length() as real);
      sprobs := sprobs + [p];
      si := si + 1;
    }
  }

  /** `probs(Span[])` on the finder: fails before any `find`, otherwise the
      per-span means over the last sequence's probabilities. */
  method ProbsOfSpans(f: NameFinder, spans: seq<Span>) returns (r: Result<seq<real>, Error>)
    requires f.bestSequence.Some? ==> SpansWithin(spans, |f.bestSequence.value.probs|)
    ensures f.bestSequence.None? ==> r == Failure(NullPointer)
    ensures f.bestSequence.Some? ==> r.Success? && |r.value| == |spans|
    ensures f.bestSequence.Some? ==>
              forall i :: 0 <= i < |spans| ==> r.value[i] == SpanMean(f.bestSequence.value.probs, spans[i])
  {
    if f.bestSequence.None? {
      return Failure(NullPointer);
    }
    var sprobs := SpanProbs(f.bestSequence.value.probs, spans);
    return Success(sprobs);
  }

  /** Example: probabilities 0.9, 0.8, 0.7, 0.6 and the span
      [1, 3) give (0.8 + 0.7) / 2. */
  lemma SpanMeanExample()
    ensures SpanMean([0.9, 0.8, 0.7, 0.6], Span(1, 3, None)) == 0.75
  {
    var s := [0.9, 0.8, 0.7, 0.6][1..3];
    assert s == [0.8, 0.7];
    assert s[..1] == [0.8];
    assert Sum(s[..1]) == 0.8 by { assert s[..1][..0] == []; }
  }
}

=== FILE: intparse.dfy ===
/** `Integer.parseInt` on a beam-size setting: an optional sign followed by one
    or more decimal digits whose value fits in a 32-bit signed int. Anything
    else is a `NumberFormatException`, modelled as `None`. */
module IntParse {
  import opened Wrappers

  const MinInt: int := -0x8000_0000
  const MaxInt: int := 0x7FFF_FFFF

  predicate IsDigit(c: char) {
    '0' <= c <= '9'
  }

  predicate AllDigits(s: string) {
    forall i :: 0 <= i < |s| ==> IsDigit(s[i])
  }

  function DigitValue(c: char): nat
    requires IsDigit(c)
  {
    (c as int) - ('0' as int)
  }

  /** The value of a digit string read most significant digit first. */
  function DigitsValue(s: string): nat
    requires AllDigits(s)
  {
    if |s| == 0 then 0
    else DigitsValue(s[..|s| - 1]) * 10 + DigitValue(s[|s| - 1])
  }

  /** The part of a numeral after an optional leading `+` or `-`. */
  function Unsigned(s: string): string
  {
    if |s| > 0 && (s[0] == '-' || s[0] == '+') then s[1..] else s
  }

  predicate Negative(s: string) {
    |s| > 0 && s[0] == '-'
  }

  /** `Integer.parseInt(s)`: accepted exactly when a non-empty digit string
      follows the optional sign and the signed value fits in 32 bits; the
      value is then the signed value of the digits. */
  function ParseInt(s: string): (r: Option<int>)
    ensures r.Some? <==>
              && |Unsigned(s)| > 0 && AllDigits(Unsigned(s))
              && (if Negative(s) then DigitsValue(Unsigned(s)) <= -MinInt else DigitsValue(Unsigned(s)) <= MaxInt)
    ensures r.Some? ==>
              r.value == (if Negative(s) then -(DigitsValue(Unsigned(s)) as int) else DigitsValue(Unsigned(s)) as int)
    ensures r.Some? ==> MinInt <= r.value <= MaxInt
    ensures r.Some? ==> |s| > 0 && (IsDigit(s[0]) || s[0] == '-' || s[0] == '+')
    ensures r.Some? ==> AllDigits(s[1..])
    ensures r.Some? && s[0] == '-' ==> r.value <= 0
    ensures r.Some? && s[0] != '-' ==> r.value >= 0
  {
    if |s| == 0 then None
    else
      var negative := s[0] == '-';
      var digits := if s[0] == '-' || s[0] == '+' then s[1..] else s;
      if |digits| == 0 || !AllDigits(digits) then None
      else
        var v: int := if negative then -(DigitsValue(digits) as int) else DigitsValue(digits);
        if MinInt <= v <= MaxInt then Some(v) else None
  }

  function DigitChar(d: nat): (c: char)
    requires d < 10
    ensures IsDigit(c) && DigitValue(c) == d
  {
    ('0' as int + d) as char
  }

  /** Decimal rendering of a natural number, without leading zeros. */
  function ShowNat(n: nat): (s: string)
    ensures |s| > 0 && AllDigits(s)
  {
    if n < 10 then [DigitChar(n)]
    else ShowNat(n / 10) + [DigitChar(n % 10)]
  }

  /** `Integer.toString`: a leading `-` for negative values. */
  function ShowInt(n: int): string
  {
    if n < 0 then "-" + ShowNat(-n) else ShowNat(n)
  }

  lemma {:induction false} ShowNatValue(n: nat)
    ensures DigitsValue(ShowNat(n)) == n
  {
    var s := ShowNat(n);
    if n >= 10 {
      ShowNatValue(n / 10);
      assert s[..|s| - 1] == ShowNat(n / 10);
    }
  }

  /** Parsing inverts rendering on every 32-bit int. */
  lemma ParseShowRoundTrip(n: int)
    requires MinInt <= n <= MaxInt
    ensures ParseInt(ShowInt(n)) == Some(n)
  {
    if n < 0 {
      ShowNatValue(-n);
      assert ShowInt(n)[1..] == ShowNat(-n);
    } else {
      ShowNatValue(n);
      assert IsDigit(ShowNat(n)[0]);
    }
  }

  /** A value outside the 32-bit range is rejected even when well formed,
      above the maximum and below the minimum alike. */
  lemma ParseRejectsOverflow(n: int)
    requires n > MaxInt || n < MinInt
    ensures ParseInt(ShowInt(n)) == None
  {
    var t := ShowInt(n);
    if n < 0 {
      ShowNatValue(-n);
      assert t[1..] == ShowNat(-n);
      assert Negative(t) && Unsigned(t) == ShowNat(-n);
      assert DigitsValue(Unsigned(t)) > -MinInt;
    } else {
      ShowNatValue(n);
      assert IsDigit(t[0]);
      assert !Negative(t) && Unsigned(t) == t;
      assert DigitsValue(Unsigned(t)) > MaxInt;
    }
  }

  /** A leading `+` is accepted and changes nothing. */
  lemma ParsePlusSign(d: string)
    requires |d| > 0 && AllDigits(d)
    ensures ParseInt("+" + d) == ParseInt(d)
  {
    assert ("+" + d)[1..] == d;
  }

  /** A leading zero adds nothing to a digit string's value. */
  lemma {:induction false} LeadingZeroValue(d: string)
    requires AllDigits(d)
    ensures AllDigits("0" + d) && DigitsValue("0" + d) == DigitsValue(d)
  {
    var z := "0" + d;
    assert AllDigits(z) by {
      forall i | 0 <= i < |z| ensures IsDigit(z[i]) {
        if i > 0 { assert z[i] == d[i - 1]; }
      }
    }
    if |d| > 0 {
      var init := d[..|d| - 1];
      LeadingZeroValue(init);
      assert z[..|z| - 1] == "0" + init;
      assert z[|z| - 1] == d[|d| - 1];
    }
  }

  /** Two numerals with the same sign whose digit parts have the same value
      parse alike. */
  lemma SameReading(a: string, b: string)
    requires Negative(a) == Negative(b)
    requires |Unsigned(a)| > 0 && AllDigits(Unsigned(a))
    requires |Unsigned(b)| > 0 && AllDigits(Unsigned(b))
    requires DigitsValue(Unsigned(a)) == DigitsValue(Unsigned(b))
    ensures ParseInt(a) == ParseInt(b)
  {
  }

  /** Leading zeros are accepted after any sign and change nothing, so
      together with the round trip every accepted numeral has a known value. */
  lemma ParseLeadingZero(sign: string, d: string)
    requires sign == "" || sign == "+" || sign == "-"
    requires |d| > 0 && AllDigits(d)
    ensures ParseInt(sign + "0" + d) == ParseInt(sign + d)
  {
    LeadingZeroValue(d);
    var a, b := sign + "0" + d, sign + d;
    if sign == "" {
      assert a == "0" + d && b == d;
      assert IsDigit(d[0]);
      assert Unsigned(a) == "0" + d && !Negative(a);
      assert Unsigned(b) == d && !Negative(b);
    } else {
      assert a[0] == sign[0] && a[1..] == "0" + d;
      assert b[0] == sign[0] && b[1..] == d;
      assert Unsigned(a) == "0" + d && Unsigned(b) == d;
    }
    SameReading(a, b);
  }

  /** `Integer.parseInt` on a few inputs: an explicit plus, leading zeros,
      negative zero, and malformed text. */
  lemma ParseIntExamples()
    ensures ParseInt("+5") == Some(5)
    ensures ParseInt("007") == Some(7)
    ensures ParseInt("-0") == Some(0)
    ensures ParseInt("") == None && ParseInt("-") == None && ParseInt("+") == None
    ensures ParseInt("1a") == None && ParseInt("--1") == None && ParseInt(" 1") == None
  {
    assert "+5"[1..] == "5" && "5"[..0] == "";
    assert "007"[..2] == "00" && "00"[..1] == "0";
    assert "-0"[1..] == "0";
    assert "1a"[1] == 'a';
    assert "--1"[1..] == "-1";
  }
}

=== FILE: nametype.dfy ===
/** `NameFinderME.extractNameType`: the name type of an outcome such as
    `"person-start"`, found by matching the whole outcome against the Java
    regular expression `(.+)-\w+` and returning its first group. */
module NameType {
  import opened Wrappers

  /** `\w` in a Java pattern without UNICODE_CHARACTER_CLASS: `[a-zA-Z_0-9]`. */
  predicate IsWordChar(c: char) {
    ('a' <= c <= 'z') || ('A' <= c <= 'Z') || ('0' <= c <= '9') || c == '_'
  }

  /** The characters `.` does not match without DOTALL: Java's line terminators. */
  predicate IsLineTerminator(c: char) {
    c == '\n' || c == '\r' || c == '\U{0085}' || c == '\U{2028}' || c == '\U{2029}'
  }

  /** The whole outcome matches `(.+)-\w+` with the hyphen at position `k`:
      group 1 is the non-empty `outcome[..k]` free of line terminators, and
      the rest after the hyphen is one or more word characters. */
  predicate MatchesAt(outcome: string, k: int) {
    && 0 < k < |outcome| - 1
    && outcome[k] == '-'
    && (forall i :: 0 <= i < k ==> !IsLineTerminator(outcome[i]))
    && (forall i :: k < i < |outcome| ==> IsWordChar(outcome[i]))
  }

  /** Position of the last hyphen, if any. */
  function LastHyphen(s: string): (r: Option<nat>)
    ensures r.Some? ==> r.value < |s| && s[r.value] == '-'
    ensures r.Some? ==> forall j :: r.value < j < |s| ==> s[j] != '-'
    ensures r.None? ==> forall j :: 0 <= j < |s| ==> s[j] != '-'
  {
    if |s| == 0 then None
    else if s[|s| - 1] == '-' then Some(|s| - 1)
    else LastHyphen(s[..|s| - 1])
  }

  /** Since `\w` never matches a hyphen, a match can only split at the last
      hyphen; so the match, and with it group 1, is unique. The result is
      present exactly when the outcome matches, and is then the text before
      that hyphen. */
  function ExtractNameType(outcome: string): (r: Option<string>)
    ensures r.Some? <==> exists k :: MatchesAt(outcome, k)
    ensures forall k :: MatchesAt(outcome, k) ==> r == Some(outcome[..k])
  {
    match LastHyphen(outcome)
    case None => None
    case Some(k) => if MatchesAt(outcome, k) then Some(outcome[..k]) else None
  }

  /** A typed outcome yields its type; the untyped `"other"` yields nothing. */
  lemma ExtractNameTypeExamples()
    ensures ExtractNameType("person-start") == Some("person")
    ensures ExtractNameType("org-unit-cont") == Some("org-unit")
    ensures ExtractNameType("other") == None
    ensures ExtractNameType("-start") == None
    ensures ExtractNameType("person-") == None
  {
    assert MatchesAt("person-start", 6) && "person-start"[..6] == "person";
    assert MatchesAt("org-unit-cont", 8) && "org-unit-cont"[..8] == "org-unit";
    assert "other"[2] != '-';
  }
}

=== FILE: overlap.dfy ===
/** Overlap resolution (`NameFinderME.dropOverlappingSpans`): the spans are
    sorted by their natural order, then one greedy pass keeps a "last kept"
    span and discards every later span that intersects it. A discarded span
    never becomes the last kept one. */
module Overlap {
  import opened Wrappers
  import opened Spans

  /** `a` can be obtained from `b` by deleting elements. */
  predicate IsSubsequence(a: seq<Span>, b: seq<Span>)
    decreases |b|
  {
    if |a| == 0 then true
    else if |b| == 0 then false
    else (a[0] == b[0] && IsSubsequence(a[1..], b[1..])) || IsSubsequence(a, b[1..])
  }

  /** Each span shares no position with the span right after it. */
  predicate NeighboursDisjoint(s: seq<Span>) {
    forall i :: 0 <= i < |s| - 1 ==> !Intersects(s[i], s[i + 1])
  }

  /** No two spans at different positions share a token position. */
  predicate PairwiseDisjoint(s: seq<Span>) {
    forall i, j :: 0 <= i < j < |s| ==> !Intersects(s[i], s[j])
  }

  /** The greedy pass over the sorted list; `last` is `lastSpan`, initially
      null. A kept span becomes the new `last`; after a removal `last` stays
      the previously kept span. */
  function Pass(s: seq<Span>, last: Option<Span>): (r: seq<Span>)
    ensures |r| <= |s|
    ensures forall y :: y in r ==> y in s
    ensures IsSubsequence(r, s)
    ensures NeighboursDisjoint(r)
    ensures last.Some? && |r| > 0 ==> !Intersects(last.value, r[0])
    ensures last.None? && |s| > 0 ==> |r| > 0 && r[0] == s[0]
    ensures Sorted(s) ==> Sorted(r)
    decreases |s|
  {
    if |s| == 0 then []
    else if last.Some? && Intersects(last.value, s[0]) then
      Pass(s[1..], last)
    else
      var rest := Pass(s[1..], Some(s[0]));
      assert Sorted(s) ==> forall y :: y in rest ==> Before(s[0], y);
      [s[0]] + rest
  }

  /** `NameFinderME.dropOverlappingSpans`. */
  function DropOverlappingSpans(spans: seq<Span>): (r: seq<Span>)
    ensures |r| <= |spans|
    ensures IsSubsequence(r, SortSpans(spans))
    ensures Sorted(r)
    ensures NeighboursDisjoint(r)
    ensures forall y :: y in r ==> y in spans
    ensures |spans| > 0 ==> |r| > 0 && r[0] == SortSpans(spans)[0]
  {
    Pass(SortSpans(spans), None)
  }

  /** On sorted valid spans whose neighbours are disjoint, each span ends no
      later than any later span starts. */
  lemma {:induction false} SortedNeighboursSeparated(s: seq<Span>)
    requires AllValid(s) && Sorted(s) && NeighboursDisjoint(s)
    ensures forall i, j :: 0 <= i < j < |s| ==> s[i].end <= s[j].start
  {
    if |s| > 1 {
      var t := s[1..];
      assert AllValid(t) && Sorted(t) && NeighboursDisjoint(t);
      SortedNeighboursSeparated(t);
      assert s[0].end <= s[1].start by {
        assert Before(s[0], s[1]) && !Intersects(s[0], s[1]);
      }
      forall i, j | 0 <= i < j < |s|
        ensures s[i].end <= s[j].start
      {
        if i == 0 && j > 1 {
          assert s[1].end <= s[j].start by { assert t[0] == s[1] && t[j - 1] == s[j]; }
        } else if i > 0 {
          assert t[i - 1] == s[i] && t[j - 1] == s[j];
        }
      }
    }
  }

  /** The output of overlap resolution on valid spans is pairwise disjoint and
      its starts strictly ascend. */
  lemma DropOverlappingSpansDisjoint(spans: seq<Span>)
    requires AllValid(spans)
    ensures PairwiseDisjoint(DropOverlappingSpans(spans))
    ensures forall i, j :: 0 <= i < j < |DropOverlappingSpans(spans)| ==>
              DropOverlappingSpans(spans)[i].end <= DropOverlappingSpans(spans)[j].start
    ensures forall i, j :: 0 <= i < j < |DropOverlappingSpans(spans)| ==>
              DropOverlappingSpans(spans)[i].start < DropOverlappingSpans(spans)[j].start
  {
    var r := DropOverlappingSpans(spans);
    assert AllValid(r) by {
      forall i | 0 <= i < |r| ensures r[i].Valid() {
        assert r[i] in spans;
      }
    }
    SortedNeighboursSeparated(r);
  }

  /** One step of the pass that keeps the head span. */
  lemma PassKeepsHead(s: seq<Span>, last: Option<Span>)
    requires |s| > 0 && !(last.Some? && Intersects(last.value, s[0]))
    ensures Pass(s, last) == [s[0]] + Pass(s[1..], Some(s[0]))
  {
  }

  /** A sequence whose neighbours are disjoint passes through the greedy pass
      unchanged when its first span does not intersect `last`. */
  lemma {:induction false} PassKeepsNeighboursDisjoint(s: seq<Span>, last: Option<Span>)
    requires NeighboursDisjoint(s)
    requires last.Some? && |s| > 0 ==> !Intersects(last.value, s[0])
    ensures Pass(s, last) == s
    decreases |s|
  {
    if |s| > 0 {
      var t := s[1..];
      assert NeighboursDisjoint(t) by {
        forall i | 0 <= i < |t| - 1 ensures !Intersects(t[i], t[i + 1]) {
          assert !Intersects(s[i + 1], s[i + 2]);
        }
      }
      if |t| > 0 {
        assert !Intersects(s[0], s[1]);
      }
      PassKeepsNeighboursDisjoint(t, Some(s[0]));
      PassKeepsHead(s, last);
      assert s == [s[0]] + t;
    }
  }

  /** Overlap resolution is idempotent. */
  lemma DropOverlappingSpansIdempotent(spans: seq<Span>)
    ensures DropOverlappingSpans(DropOverlappingSpans(spans)) == DropOverlappingSpans(spans)
  {
    var r := DropOverlappingSpans(spans);
    SortSortedIsIdentity(r);
    PassKeepsNeighboursDisjoint(r, None);
  }

  /** Inserting a span that meets no element keeps a pairwise disjoint
      sequence pairwise disjoint. */
  lemma {:induction false} InsertKeepsDisjoint(x: Span, s: seq<Span>)
    requires Sorted(s) && PairwiseDisjoint(s)
    requires forall y :: y in s ==> !Intersects(x, y)
    ensures PairwiseDisjoint(Insert(x, s))
  {
    if |s| > 0 && !Before(x, s[0]) {
      var t := s[1..];
      assert PairwiseDisjoint(t);
      InsertKeepsDisjoint(x, t);
      var rest := Insert(x, t);
      forall y | y in rest
        ensures !Intersects(s[0], y)
      {
        if y == x {
          assert s[0] in s;
        } else {
          var k :| 0 <= k < |t| && t[k] == y;
          assert s[k + 1] == y;
        }
      }
    }
  }

  /** Sorting keeps a pairwise disjoint collection pairwise disjoint. */
  lemma {:induction false} SortKeepsDisjoint(s: seq<Span>)
    requires PairwiseDisjoint(s)
    ensures PairwiseDisjoint(SortSpans(s))
  {
    if |s| > 0 {
      var t := s[1..];
      assert PairwiseDisjoint(t);
      SortKeepsDisjoint(t);
      forall y | y in SortSpans(t)
        ensures !Intersects(s[0], y)
      {
        var k :| 0 <= k < |t| && t[k] == y;
        assert s[k + 1] == y;
      }
      InsertKeepsDisjoint(s[0], SortSpans(t));
    }
  }

  /** Input that is already pairwise disjoint comes back exactly sorted:
      nothing is dropped. */
  lemma DropOverlappingSpansOfDisjoint(spans: seq<Span>)
    requires PairwiseDisjoint(spans)
    ensures DropOverlappingSpans(spans) == SortSpans(spans)
  {
    SortKeepsDisjoint(spans);
    PassKeepsNeighboursDisjoint(SortSpans(spans), None);
  }

  /** Every span the pass drops intersects `last` or a kept span. */
  lemma {:induction false} PassDropsOnlyIntersecting(s: seq<Span>, last: Option<Span>)
    ensures forall y :: y in s ==>
              y in Pass(s, last)
              || (last.Some? && Intersects(last.value, y))
              || exists k :: k in Pass(s, last) && Intersects(k, y)
  {
    if |s| > 0 {
      var t := s[1..];
      assert s == [s[0]] + t;
      if last.Some? && Intersects(last.value, s[0]) {
        PassDropsOnlyIntersecting(t, last);
      } else {
        PassDropsOnlyIntersecting(t, Some(s[0]));
      }
    }
  }

  /** One step of the pass that drops the head span. */
  lemma PassDropsHead(s: seq<Span>, last: Option<Span>)
    requires |s| > 0 && last.Some? && Intersects(last.value, s[0])
    ensures Pass(s, last) == Pass(s[1..], last)
  {
  }

  /** The greedy rule by position: a span is dropped only when it meets
      `last` or a span kept EARLIER in the sequence; any other span is kept. */
  lemma {:induction false} PassDropsOnlyMeetingEarlier(s: seq<Span>, last: Option<Span>, j: int)
    requires 0 <= j < |s| && s[j] !in Pass(s, last)
    ensures || (last.Some? && Intersects(last.value, s[j]))
            || exists i :: 0 <= i < j && s[i] in Pass(s, last) && Intersects(s[i], s[j])
    decreases |s|
  {
    var t := s[1..];
    if last.Some? && Intersects(last.value, s[0]) {
      PassDropsHead(s, last);
      if j > 0 {
        assert t[j - 1] == s[j];
        PassDropsOnlyMeetingEarlier(t, last, j - 1);
        if !(last.Some? && Intersects(last.value, s[j])) {
          var i' :| 0 <= i' < j - 1 && t[i'] in Pass(t, last) && Intersects(t[i'], t[j - 1]);
          assert s[i' + 1] == t[i'];
        }
      }
    } else {
      PassKeepsHead(s, last);
      assert s[0] in Pass(s, last);
      assert j > 0;
      assert t[j - 1] == s[j];
      assert s[j] !in Pass(t, Some(s[0]));
      PassDropsOnlyMeetingEarlier(t, Some(s[0]), j - 1);
      if !Intersects(s[0], s[j]) {
        var i' :| 0 <= i' < j - 1 && t[i'] in Pass(t, Some(s[0])) && Intersects(t[i'], t[j - 1]);
        assert s[i' + 1] == t[i'];
        assert s[i' + 1] in Pass(s, last);
      }
    }
  }

  /** Every input span that is not in the output intersects a span that is,
      and in sorted order a dropped span meets a span kept BEFORE it. */
  lemma DroppedSpansIntersectKept(spans: seq<Span>)
    ensures forall y :: y in spans ==>
              y in DropOverlappingSpans(spans)
              || exists k :: k in DropOverlappingSpans(spans) && Intersects(k, y)
    ensures var s := SortSpans(spans);
            forall j :: 0 <= j < |s| && s[j] !in DropOverlappingSpans(spans) ==>
              exists i :: 0 <= i < j && s[i] in DropOverlappingSpans(spans) && Intersects(s[i], s[j])
  {
    var s := SortSpans(spans);
    PassDropsOnlyIntersecting(s, None);
    forall j | 0 <= j < |s| && s[j] !in DropOverlappingSpans(spans)
      ensures exists i :: 0 <= i < j && s[i] in DropOverlappingSpans(spans) && Intersects(s[i], s[j])
    {
      PassDropsOnlyMeetingEarlier(s, None, j);
    }
  }

  /** A valid span contained in a different kept span is never kept itself. */
  lemma ContainedInKeptIsDropped(spans: seq<Span>, k: Span, y: Span)
    requires AllValid(spans)
    requires k in DropOverlappingSpans(spans)
    requires y in spans && y != k && Contains(k, y)
    ensures y !in DropOverlappingSpans(spans)
  {
    var r := DropOverlappingSpans(spans);
    DropOverlappingSpansDisjoint(spans);
    var i :| 0 <= i < |r| && r[i] == k;
    var q :| 0 <= q < |spans| && spans[q] == y;
    assert y.Valid();
    assert Intersects(k, y);
    forall j | 0 <= j < |r| && j != i
      ensures !Intersects(k, r[j])
    {
      if j < i {
        assert !Intersects(r[j], r[i]);
      }
    }
  }

  predicate Distinct(s: seq<Span>) {
    forall i, j :: 0 <= i < j < |s| ==> s[i] != s[j]
  }

  /** While `last` intersects a run of spans that share one range, the whole
      run is dropped. */
  lemma {:induction false} PassDropsRunIntersectingLast(t: seq<Span>, l: Span, j: int)
    requires Distinct(t)
    requires 0 <= j < |t|
    requires Intersects(l, t[j])
    requires forall p :: 0 <= p < j ==> SameRange(t[p], t[j])
    ensures t[j] !in Pass(t, Some(l))
    decreases j
  {
    assert Intersects(l, t[0]);
    var u := t[1..];
    if j == 0 {
      assert t[0] !in u;
    } else {
      assert Distinct(u);
      assert u[j - 1] == t[j];
      PassDropsRunIntersectingLast(u, l, j - 1);
    }
  }

  /** Of two distinct valid spans with the same range, the later one in
      sorted order is never kept, whatever `last` is. */
  lemma {:induction false} PassDropsLaterOfSameRange(s: seq<Span>, last: Option<Span>, i: int, j: int)
    requires AllValid(s) && Sorted(s) && Distinct(s)
    requires 0 <= i < j < |s| && SameRange(s[i], s[j])
    ensures s[j] !in Pass(s, last)
    decreases |s|
  {
    var t := s[1..];
    assert AllValid(t) && Sorted(t) && Distinct(t);
    assert s[j] != s[0];
    if i > 0 {
      assert t[i - 1] == s[i] && t[j - 1] == s[j];
      if last.Some? && Intersects(last.value, s[0]) {
        PassDropsLaterOfSameRange(t, last, i - 1, j - 1);
      } else {
        PassDropsLaterOfSameRange(t, Some(s[0]), i - 1, j - 1);
      }
    } else {
      assert t[j - 1] == s[j];
      forall p | 0 <= p < j - 1
        ensures SameRange(t[p], t[j - 1])
      {
        assert Before(s[0], s[p + 1]) && Before(s[p + 1], s[j]);
      }
      assert s[0].Valid() && s[j].Valid();
      if last.Some? && Intersects(last.value, s[0]) {
        PassDropsRunIntersectingLast(t, last.value, j - 1);
      } else {
        PassDropsRunIntersectingLast(t, s[0], j - 1);
      }
    }
  }

  /** Of distinct spans sharing one range, only the first after sorting can
      remain. */
  lemma IdenticalRangeFirstRemains(spans: seq<Span>, i: int, j: int)
    requires AllValid(spans) && Distinct(SortSpans(spans))
    requires 0 <= i < j < |spans|
    requires SameRange(SortSpans(spans)[i], SortSpans(spans)[j])
    ensures SortSpans(spans)[j] !in DropOverlappingSpans(spans)
  {
    var s := SortSpans(spans);
    assert AllValid(s) by {
      forall k | 0 <= k < |s| ensures s[k].Valid() {
        assert s[k] in spans;
      }
    }
    PassDropsLaterOfSameRange(s, None, i, j);
  }

  /** A sequence without repeats has at most one copy of each span. */
  lemma {:induction false} DistinctAtMostOnce(s: seq<Span>, x: Span)
    requires Distinct(s)
    ensures multiset(s)[x] <= 1
  {
    if |s| > 0 {
      assert s == [s[0]] + s[1..];
      assert Distinct(s[1..]);
      DistinctAtMostOnce(s[1..], x);
      if s[0] == x {
        assert x !in s[1..];
      }
    }
  }

  /** A permutation of a sequence without repeats has none either. */
  lemma DistinctPermutation(a: seq<Span>, b: seq<Span>)
    requires Distinct(a) && multiset(a) == multiset(b)
    ensures Distinct(b)
  {
    forall i, j | 0 <= i < j < |b|
      ensures b[i] != b[j]
    {
      if b[i] == b[j] {
        assert b == b[..j] + b[j..];
        assert b[i] in b[..j] && b[j] in b[j..];
        assert multiset(b)[b[i]] >= 2;
        DistinctAtMostOnce(a, b[i]);
        assert false;
      }
    }
  }

  /** In INPUT order: of distinct valid spans sharing one range, a span that
      is kept is the first of its range in the input, because the sort keeps
      tied spans in input order. */
  lemma SameRangeFirstInInputRemains(spans: seq<Span>, p: int)
    requires AllValid(spans) && Distinct(spans)
    requires 0 <= p < |spans|
    ensures spans[p] in DropOverlappingSpans(spans) ==>
              spans[p] == WithRange(spans, spans[p].start, spans[p].end)[0]
  {
    var x := spans[p];
    var w := WithRange(spans, x.start, x.end);
    assert HasRange(x, x.start, x.end);
    assert x in w;
    var s := SortSpans(spans);
    SortKeepsTies(spans, x.start, x.end);
    DistinctPermutation(spans, s);
    assert AllValid(s) by {
      forall k | 0 <= k < |s| ensures s[k].Valid() {
        assert s[k] in spans;
      }
    }
    if x != w[0] {
      var i := FirstOfRange(s, x.start, x.end);
      assert x in s;
      var j :| 0 <= j < |s| && s[j] == x;
      assert HasRange(s[i], x.start, x.end);
      assert HasRange(s[j], x.start, x.end);
      assert i < j;
      assert SameRange(s[i], s[j]);
      PassDropsLaterOfSameRange(s, None, i, j);
    }
  }

  /** Three spans where only the second meets the first: the pass keeps the
      first and the third. */
  lemma PassDropsMiddleOfThree(a: Span, b: Span, c: Span)
    requires Intersects(a, b) && !Intersects(a, c)
    ensures Pass([a, b, c], None) == [a, c]
  {
    assert Pass([c], Some(a)) == [c] by { assert Pass([], Some(c)) == []; }
    assert Pass([b, c], Some(a)) == [c] by { assert [b, c][1..] == [c]; }
    assert Pass([a, b, c], None) == [a] + Pass([b, c], Some(a)) by { assert [a, b, c][1..] == [b, c]; }
  }

  /** Example: of (0,3), (2,5), (6,8) the second intersects the
      first and is dropped. */
  lemma DropOverlappingSpansExample()
    ensures DropOverlappingSpans([Span(0, 3, None), Span(2, 5, None), Span(6, 8, None)])
            == [Span(0, 3, None), Span(6, 8, None)]
  {
    var a, b, c := Span(0, 3, None), Span(2, 5, None), Span(6, 8, None);
    SortSortedIsIdentity([a, b, c]);
    PassDropsMiddleOfThree(a, b, c);
  }

  /** A span contained in a DROPPED span can survive: (5,6) lies inside
      (2,10), which is dropped for intersecting (0,3), and (5,6) meets no kept
      span. Only containment in a kept span forces removal. */
  lemma ContainedInDroppedMaySurvive()
    ensures DropOverlappingSpans([Span(0, 3, None), Span(2, 10, None), Span(5, 6, None)])
            == [Span(0, 3, None), Span(5, 6, None)]
  {
    var a, b, c := Span(0, 3, None), Span(2, 10, None), Span(5, 6, None);
    SortSortedIsIdentity([a, b, c]);
    PassDropsMiddleOfThree(a, b, c);
  }

  /** A sorted sequence whose neighbours are disjoint is left unchanged. */
  lemma SortedNeighboursDisjointUnchanged(s: seq<Span>)
    requires Sorted(s) && NeighboursDisjoint(s)
    ensures DropOverlappingSpans(s) == s
  {
    SortSortedIsIdentity(s);
    PassKeepsNeighboursDisjoint(s, None);
  }

  /** Under half-open overlap two copies of one empty span never meet, nor
      does an empty span meet a span it touches only at an end, so all of
      them survive, although `Span.intersects` would count them as meeting:
      it also tests containment. */
  lemma EmptySpansSurvive()
    ensures DropOverlappingSpans([Span(3, 3, None), Span(3, 3, None)]) == [Span(3, 3, None), Span(3, 3, None)]
    ensures DropOverlappingSpans([Span(0, 5, None), Span(5, 5, None)]) == [Span(0, 5, None), Span(5, 5, None)]
  {
    var e := Span(3, 3, None);
    assert Sorted([e, e]) && NeighboursDisjoint([e, e]);
    SortedNeighboursDisjointUnchanged([e, e]);
    var a, b := Span(0, 5, None), Span(5, 5, None);
    assert Sorted([a, b]) && NeighboursDisjoint([a, b]);
    SortedNeighboursDisjointUnchanged([a, b]);
  }


}

=== FILE: spans.dfy ===
/** Token spans: half-open ranges of token positions with an optional type tag,
    their intersection test and the natural order used to sort them. The Java
    `Span` class is not part of this model; this module states the minimal
    behaviour the name finder relies on. */
module Spans {
  import opened Wrappers

  /** A span `[start, end)` over token positions, optionally typed. */
  datatype Span = Span(start: int, end: int, tag: Option<string>) {

    /** A span produced by the name finder is non-empty and starts at a
        non-negative position. */
    predicate Valid() {
      0 <= start < end
    }

    function Length(): int {
      end - start
    }
  }

  /** `y` covers exactly `[start, end)`. */
  predicate HasRange(y: Span, start: int, end: int) {
    y.start == start && y.end == end
  }

  /** `a` and `b` cover the same positions. */
  predicate SameRange(a: Span, b: Span) {
    HasRange(b, a.start, a.end)
  }

  predicate AllValid(s: seq<Span>) {
    forall i :: 0 <= i < |s| ==> s[i].Valid()
  }

  /** Ordinary half-open overlap: for non-empty spans, the two ranges share
      at least one position. An empty span meets a span that strictly
      surrounds its position, but not a copy of itself nor a span it touches
      only at an end. For valid spans this agrees with `Span.intersects`,
      which also covers containment of one span in the other. */
  predicate Intersects(a: Span, b: Span) {
    a.start < b.end && b.start < a.end
  }

  /** `a` covers every position `b` covers. */
  predicate Contains(a: Span, b: Span) {
    a.start <= b.start && b.end <= a.end
  }

  /** The natural span order assumed for `Collections.sort`: ascending start
      and, at equal start, the LONGER span first. Spans with the same start
      and end are tied, so a stable sort keeps them in input order. */
  predicate Before(a: Span, b: Span) {
    a.start < b.start || (a.start == b.start && a.end >= b.end)
  }

  predicate Sorted(s: seq<Span>) {
    forall i, j :: 0 <= i < j < |s| ==> Before(s[i], s[j])
  }

  /** Inserts `x` in front of the first element it may precede; placing it
      before tied elements keeps the sort stable when `x` came first. */
  function Insert(x: Span, s: seq<Span>): (r: seq<Span>)
    requires Sorted(s)
    ensures Sorted(r)
    ensures multiset(r) == multiset(s) + multiset{x}
    ensures forall y :: y in r <==> y == x || y in s
  {
    if |s| == 0 then [x]
    else if Before(x, s[0]) then [x] + s
    else
      var rest := Insert(x, s[1..]);
      assert s == [s[0]] + s[1..];
      assert forall y :: y in rest ==> Before(s[0], y);
      [s[0]] + rest
  }

  /** A stable insertion sort by the natural order: the model of copying the
      spans into a list and sorting it. */
  function SortSpans(s: seq<Span>): (r: seq<Span>)
    ensures Sorted(r)
    ensures multiset(r) == multiset(s)
    ensures |r| == |s|
    ensures forall y :: y in r <==> y in s
  {
    if |s| == 0 then []
    else
      assert s == [s[0]] + s[1..];
      Insert(s[0], SortSpans(s[1..]))
  }

  /** Sorting an already sorted sequence changes nothing. */
  lemma {:induction false} SortSortedIsIdentity(s: seq<Span>)
    requires Sorted(s)
    ensures SortSpans(s) == s
  {
    if |s| > 0 {
      assert Sorted(s[1..]);
      SortSortedIsIdentity(s[1..]);
      assert s == [s[0]] + s[1..];
    }
  }

  /** The spans of `s` covering exactly `[start, end)`, in their order in `s`. */
  function WithRange(s: seq<Span>, start: int, end: int): (r: seq<Span>)
    ensures forall y :: y in r <==> y in s && HasRange(y, start, end)
  {
    if |s| == 0 then []
    else
      assert s == [s[0]] + s[1..];
      TieOf(s[0], start, end) + WithRange(s[1..], start, end)
  }

  /** The spans of one range, when `x` alone has it. */
  function TieOf(x: Span, start: int, end: int): seq<Span>
  {
    if HasRange(x, start, end) then [x] else []
  }

  lemma WithRangeCons(y: Span, t: seq<Span>, start: int, end: int)
    ensures WithRange([y] + t, start, end) == TieOf(y, start, end) + WithRange(t, start, end)
  {
    assert ([y] + t)[0] == y && ([y] + t)[1..] == t;
  }

  /** The two recursive steps of `Insert`. */
  lemma InsertStep(x: Span, s: seq<Span>)
    requires Sorted(s) && |s| > 0
    ensures Before(x, s[0]) ==> Insert(x, s) == [x] + s
    ensures !Before(x, s[0]) ==> Sorted(s[1..]) && Insert(x, s) == [s[0]] + Insert(x, s[1..])
  {
  }

  lemma SwapAroundEmpty(a: seq<Span>, b: seq<Span>, w: seq<Span>)
    requires a == [] || b == []
    ensures a + (b + w) == b + (a + w)
  {
    if a == [] {
      assert a + (b + w) == b + w && a + w == w;
    } else {
      assert b + w == w && b + (a + w) == a + w;
    }
  }

  /** The step of `InsertKeepsTies` where `x` goes after the head. */
  lemma InsertLaterKeepsTies(x: Span, s: seq<Span>, start: int, end: int)
    requires Sorted(s) && |s| > 0 && !Before(x, s[0])
    requires WithRange(Insert(x, s[1..]), start, end) == TieOf(x, start, end) + WithRange(s[1..], start, end)
    ensures WithRange(Insert(x, s), start, end) == TieOf(x, start, end) + WithRange(s, start, end)
  {
    var t := s[1..];
    InsertStep(x, s);
    WithRangeCons(s[0], Insert(x, t), start, end);
    assert WithRange(s, start, end) == TieOf(s[0], start, end) + WithRange(t, start, end);
    SwapAroundEmpty(TieOf(s[0], start, end), TieOf(x, start, end), WithRange(t, start, end));
  }

  /** Inserting `x` puts it in front of every element with its range. */
  lemma {:induction false} InsertKeepsTies(x: Span, s: seq<Span>, start: int, end: int)
    requires Sorted(s)
    ensures WithRange(Insert(x, s), start, end) == TieOf(x, start, end) + WithRange(s, start, end)
  {
    if |s| == 0 {
      WithRangeCons(x, [], start, end);
    } else if Before(x, s[0]) {
      InsertStep(x, s);
      WithRangeCons(x, s, start, end);
    } else {
      InsertStep(x, s);
      InsertKeepsTies(x, s[1..], start, end);
      InsertLaterKeepsTies(x, s, start, end);
    }
  }

  /** The sort is stable: spans with the same range come out in the order
      they went in. */
  lemma {:induction false} SortKeepsTies(s: seq<Span>, start: int, end: int)
    ensures WithRange(SortSpans(s), start, end) == WithRange(s, start, end)
  {
    if |s| > 0 {
      SortKeepsTies(s[1..], start, end);
      InsertKeepsTies(s[0], SortSpans(s[1..]), start, end);
    }
  }

  /** The position of the first span of `s` with the range `[start, end)`. */
  lemma {:induction false} FirstOfRange(s: seq<Span>, start: int, end: int) returns (i: int)
    requires WithRange(s, start, end) != []
    ensures 0 <= i < |s| && s[i] == WithRange(s, start, end)[0]
    ensures forall k :: 0 <= k < i ==> !HasRange(s[k], start, end)
  {
    if HasRange(s[0], start, end) {
      i := 0;
    } else {
      var i' := FirstOfRange(s[1..], start, end);
      i := i' + 1;
    }
  }
}

=== FILE: training.dfy ===
/** `NameFinderME.train` with a factory: reads the beam size, dispatches on the
    trainer type to one of three trainer families and wraps the trained model
    into a model artifact. The trainers and `TrainerFactory.getTrainerType`
    are collaborators passed in as functions. */
module Training {
  import opened Wrappers
  import opened Errors
  import opened Spans
  import opened Features
  import opened Factory
  import opened Artifact
  import IntParse

  /** `NameFinderME.DEFAULT_BEAM_SIZE`. */
  const DefaultBeamSize: int := 3

  /** `BeamSearch.BEAM_SIZE_PARAMETER`; `BeamSearch` is not part of this
      model and no proof depends on the value. */
  const BeamSizeParameter: string := "BeamSize"

  const UnexpectedTrainerType: string := "Unexpected trainer type!"

  /** The trainer families `TrainerFactory.getTrainerType` distinguishes. */
  datatype TrainerType = EventModelTrainer | EventModelSequenceTrainer | SequenceTrainer

  /** A training sample: a sentence and its gold name spans. */
  datatype NameSample = NameSample(sentence: seq<string>, names: seq<Span>)

  /** The training streams the trainers consume. `useOutcomes` is the third
      `NameSampleSequenceStream` constructor argument, `None` when the
      two-argument constructor is used. */
  datatype TrainingStream =
    | NameFinderEventStream(samples: seq<NameSample>, nameType: Option<string>,
                            contextGenerator: ContextGenerator, codec: Option<SequenceCodec>)
    | NameSampleSequenceStream(samples: seq<NameSample>, contextGenerator: ContextGenerator,
                               useOutcomes: Option<bool>)

  /** The collaborators of `train`: trainer-type selection (null for an
      unrecognised setting) and the three trainers, each returning its model
      and the manifest entries it reported. */
  datatype Trainers = Trainers(
    trainerType: map<string, string> -> Option<TrainerType>,
    eventTrainer: (map<string, string>, TrainingStream) -> (Classifier, map<string, string>),
    eventModelSequenceTrainer: (map<string, string>, TrainingStream) -> (Classifier, map<string, string>),
    sequenceTrainer: (map<string, string>, TrainingStream) -> (SequenceModel, map<string, string>))

  /** The beam size `train` uses: the default unless the setting is present,
      in which case it is the setting parsed as a 32-bit int, and a setting
      that does not parse is a `NumberFormatException`. */
  function BeamSizeOf(settings: map<string, string>): (r: Result<int, Error>)
    ensures BeamSizeParameter !in settings ==> r == Success(DefaultBeamSize)
    ensures BeamSizeParameter in settings ==>
              && (r.Success? <==> IntParse.ParseInt(settings[BeamSizeParameter]).Some?)
              && (r.Success? ==> r.value == IntParse.ParseInt(settings[BeamSizeParameter]).value)
              && (r.Failure? ==> r.error == NumberFormat(settings[BeamSizeParameter]))
  {
    match Get(settings, BeamSizeParameter)
    case None => Success(DefaultBeamSize)
    case Some(text) =>
      match IntParse.ParseInt(text)
      case None => Failure(NumberFormat(text))
      case Some(n) => Success(n)
  }

  /** A beam size written as a 32-bit int setting is read back exactly. */
  lemma BeamSizeSettingRoundTrip(settings: map<string, string>, n: int)
    requires IntParse.MinInt <= n <= IntParse.MaxInt
    ensures BeamSizeOf(settings[BeamSizeParameter := IntParse.ShowInt(n)]) == Success(n)
  {
    IntParse.ParseShowRoundTrip(n);
  }

  /** Exactly one of (classifier with beam size) and (sequence model). */
  predicate Exclusive(m: NameFinderModel) {
    (m.sequenceModel.Some? && m.classifier.None? && m.beamSize.None?)
    || (m.sequenceModel.None? && m.classifier.Some? && m.beamSize.Some?)
  }

  /** The artifact built around a native sequence model. */
  function SequenceArtifact(languageCode: string, seqModel: SequenceModel, factory: NameFinderFactory,
                            manifest: map<string, string>): NameFinderModel
  {
    NameFinderModel(languageCode, Some(seqModel), None, None, None, factory.resources, manifest, factory.seqCodec)
  }

  /** The artifact built around a classifier and the beam size. */
  function ClassifierArtifact(languageCode: string, classifier: Classifier, beamSize: int,
                              factory: NameFinderFactory, manifest: map<string, string>): NameFinderModel
  {
    NameFinderModel(languageCode, None, Some(classifier), Some(beamSize), None, factory.resources, manifest, factory.seqCodec)
  }

  /** `NameFinderME.train(languageCode, type, samples, trainParams, factory)`.
      The beam size is read first; the trainer type then selects the
      family, an unknown type being an `IllegalStateException`. Only the
      event trainer uses the name type and the factory's codec; every artifact
      carries the factory's configured codec field and resources. */
  function Train(languageCode: string, nameType: Option<string>, samples: seq<NameSample>,
                 settings: map<string, string>, factory: NameFinderFactory, trainers: Trainers,
                 lookup: string -> Option<SequenceCodec>,
                 parse: (seq<byte>, ResourceLookup) -> ParseOutcome): (r: Result<NameFinderModel, Error>)
    ensures BeamSizeOf(settings).Failure? ==> r == Failure(BeamSizeOf(settings).error)
    ensures BeamSizeOf(settings).Success? && trainers.trainerType(settings).None? ==>
              r == Failure(IllegalState(UnexpectedTrainerType))
    ensures r.Success? ==> Exclusive(r.value)
    ensures r.Success? ==>
              && r.value.languageCode == languageCode
              && r.value.seqCodec == factory.seqCodec
              && r.value.resources == factory.resources
              && r.value.generatorDescriptor.None?
    ensures r.Success? && trainers.trainerType(settings) == Some(SequenceTrainer) ==>
              r.value.sequenceModel.Some?
    ensures r.Success? && trainers.trainerType(settings) != Some(SequenceTrainer) ==>
              r.value.classifier.Some? && r.value.beamSize == Some(BeamSizeOf(settings).value)
    ensures BeamSizeOf(settings).Success? && trainers.trainerType(settings).Some? ==>
              (r.Success? <==> CreateContextGenerator(factory, parse).Success?
                               && (trainers.trainerType(settings) == Some(EventModelTrainer)
                                   ==> CreateSequenceCodec(factory, lookup).Success?))
  {
    var beamSize :- BeamSizeOf(settings);
    match trainers.trainerType(settings)
    case None => Failure(IllegalState(UnexpectedTrainerType))
    case Some(EventModelTrainer) =>
      var cg :- CreateContextGenerator(factory, parse);
      var codec :- CreateSequenceCodec(factory, lookup);
      var (classifier, manifest) := trainers.eventTrainer(settings, NameFinderEventStream(samples, nameType, cg, codec));
      Success(ClassifierArtifact(languageCode, classifier, beamSize, factory, manifest))
    case Some(EventModelSequenceTrainer) =>
      var cg :- CreateContextGenerator(factory, parse);
      var (classifier, manifest) := trainers.eventModelSequenceTrainer(settings, NameSampleSequenceStream(samples, cg, None));
      Success(ClassifierArtifact(languageCode, classifier, beamSize, factory, manifest))
    case Some(SequenceTrainer) =>
      var cg :- CreateContextGenerator(factory, parse);
      var (seqModel, manifest) := trainers.sequenceTrainer(settings, NameSampleSequenceStream(samples, cg, Some(false)));
      Success(SequenceArtifact(languageCode, seqModel, factory, manifest))
  }

  /** Without a beam-size setting a classifier artifact gets beam size 3. */
  lemma DefaultBeamSizeUsed(languageCode: string, nameType: Option<string>, samples: seq<NameSample>,
                            settings: map<string, string>, factory: NameFinderFactory, trainers: Trainers,
                            lookup: string -> Option<SequenceCodec>, parse: (seq<byte>, ResourceLookup) -> ParseOutcome)
    requires BeamSizeParameter !in settings
    requires trainers.trainerType(settings) in {Some(EventModelTrainer), Some(EventModelSequenceTrainer)}
    requires CreateContextGenerator(factory, parse).Success? && CreateSequenceCodec(factory, lookup).Success?
    ensures Train(languageCode, nameType, samples, settings, factory, trainers, lookup, parse).Success?
    ensures Train(languageCode, nameType, samples, settings, factory, trainers, lookup, parse).value.beamSize
            == Some(DefaultBeamSize)
  {
  }

  /** Each trainer family is handed its stream and the model it returns is
      stored with the manifest entries it reported: the event trainer gets
      the name type, context generator and codec; the event-model-sequence
      trainer gets the two-argument sequence stream; the sequence trainer gets
      the sequence stream without outcomes, and its artifact has no beam size. */
  lemma TrainerInputsAndOutputs(languageCode: string, nameType: Option<string>, samples: seq<NameSample>,
                                settings: map<string, string>, factory: NameFinderFactory, trainers: Trainers,
                                lookup: string -> Option<SequenceCodec>, parse: (seq<byte>, ResourceLookup) -> ParseOutcome)
    requires BeamSizeOf(settings).Success?
    requires CreateContextGenerator(factory, parse).Success?
    ensures var cg := CreateContextGenerator(factory, parse).value;
            var r := Train(languageCode, nameType, samples, settings, factory, trainers, lookup, parse);
            && (trainers.trainerType(settings) == Some(EventModelTrainer) && CreateSequenceCodec(factory, lookup).Success? ==>
                  var trained := trainers.eventTrainer(settings,
                                   NameFinderEventStream(samples, nameType, cg, CreateSequenceCodec(factory, lookup).value));
                  r.Success? && r.value.classifier == Some(trained.0) && r.value.manifest == trained.1)
            && (trainers.trainerType(settings) == Some(EventModelSequenceTrainer) ==>
                  var trained := trainers.eventModelSequenceTrainer(settings, NameSampleSequenceStream(samples, cg, None));
                  r.Success? && r.value.classifier == Some(trained.0) && r.value.manifest == trained.1)
            && (trainers.trainerType(settings) == Some(SequenceTrainer) ==>
                  var trained := trainers.sequenceTrainer(settings, NameSampleSequenceStream(samples, cg, Some(false)));
                  && r.Success? && r.value.sequenceModel == Some(trained.0) && r.value.manifest == trained.1
                  && r.value.beamSize.None?)
  {
  }

  /** The legacy event-model-sequence path ignores the name type and the
      codec: its stream carries neither, so the result does not depend on
      them. */
  lemma EventModelSequenceIgnoresTypeAndCodec(languageCode: string, t1: Option<string>, t2: Option<string>,
                                              samples: seq<NameSample>, settings: map<string, string>,
                                              factory: NameFinderFactory, trainers: Trainers,
                                              l1: string -> Option<SequenceCodec>, l2: string -> Option<SequenceCodec>,
                                              parse: (seq<byte>, ResourceLookup) -> ParseOutcome)
    requires trainers.trainerType(settings) == Some(EventModelSequenceTrainer)
    ensures Train(languageCode, t1, samples, settings, factory, trainers, l1, parse)
            == Train(languageCode, t2, samples, settings, factory, trainers, l2, parse)
  {
  }
}

=== FILE: wrappers.dfy ===
/** Failure-compatible helper datatypes shared by every module of the model:
    `Option` stands for a Java reference that may be null, `Result` for a value
    or the exception that replaces it. */
module Wrappers {

  datatype Option<+T> = None | Some(value: T) {

    predicate IsFailure() {
      None?
    }

    function PropagateFailure<U>(): Option<U>
      requires None?
    {
      None
    }

    function Extract(): T
      requires Some?
    {
      value
    }
  }

  datatype Result<+R, +E> = Success(value: R) | Failure(error: E) {

    predicate IsFailure() {
      Failure?
    }

    function PropagateFailure<U>(): Result<U, E>
      requires Failure?
    {
      Failure(error)
    }

    function Extract(): R
      requires Success?
    {
      value
    }
  }

  /** `Map.get`: the value bound to `k`, or null. */
  function Get<K, V>(m: map<K, V>, k: K): Option<V>
  {
    if k in m then Some(m[k]) else None
  }
}

/** The exceptions the modelled code raises or lets escape, by Java class. */
module Errors {

  datatype Error =
    /** `opennlp.tools.util.InvalidFormatException` (a checked configuration error). */
    | InvalidFormat(message: string)
    /** The unchecked failure of the extension loader to resolve a class name. */
    | ExtensionNotLoaded(className: string)
    /** `TokenNameFinderModel.FeatureGeneratorCreationError`, a fatal error. */
    | FeatureGeneratorCreation(cause: string)
    /** `java.lang.IllegalStateException`. */
    | IllegalState(message: string)
    /** `java.lang.NumberFormatException` raised by `Integer.parseInt`. */
    | NumberFormat(input: string)
    /** `java.lang.NullPointerException` from dereferencing a null field. */
    | NullPointer
    /** `java.lang.ClassCastException` from a failed downcast. */
    | ClassCast
}
